=== FILE: README.md ===
# librados-rs, modelled in Dafny

A model of the sequential core of librados-rs, the asynchronous Rust binding to
Ceph's librados. Every call into librados is replaced by the reply it gives: a
status code, a length, a buffer's contents, an iterator handle. The model
covers:

- how the binding classifies C status codes into errors and compares them;
- the byte-level decoders: C strings, snapshot names, extended-attribute
  drains, and the NUL-separated pool list;
- the two retry-growth loops, `get_xattr` and `snapshot_list`, plus the
  one-retry fetch of `pool_list`;
- the control flow of the object operations;
- the waker slot that connects a pending `AioCompletion` to the task awaiting
  it.

Each module follows a source file:

| module | file | what it holds |
|---|---|---|
| `Bytes` | — | bytes, C NUL search, the UTF-8 check that `str::from_utf8` performs (Unicode Table 3-7) |
| `Vecs` | — | `Vec` capacity: `set_len` over the memory a call wrote, `reserve` as an allocator that grants at least what is asked |
| `Errors` | src/errors.rs | `Error`, `check_error`, `ERROR_RANGE`, error equality, `as c_int` |
| `Utils` | src/utils.rs | `c_char_ptr_to_string`, `CString::new`, `unwrap` |
| `Io` | src/io.rs | `IoCtx::new`, `AioCompletion::new`, `get_return_value` |
| `Waker` | src/io.rs | the waker slot as a state machine; `poll` |
| `Xattr` | src/xattr.rs | `Xattrs::from_iter`, `Drop for RadosXattrsIter` |
| `Objects` | src/object.rs | `read`, `write`, `write_full`, `append`, `get_xattr`, `get_xattrs`, `set_xattr` |
| `Pools` | src/pool.rs | `snapshot_list`, `snapshot_get_name`, `ListObjectResultIter` |
| `Cluster` | src/cluster.rs | `pool_list`, `pool_lookup` |

Conventions:

- Rust strings are their UTF-8 bytes (`Text`).
- `strerror` is a parameter: a `MessageTable` from codes to message bytes.
- `String::from_utf8_lossy` is a parameter (`Lossy`).
- `Result` has a third outcome, `Panic`, for `assert!(code <= 0)` and `unwrap()`.
- Buffer memory after a call is a function from index to byte. `set_len(n)` takes its first `n` values (`Vecs.Filled`).
- `Vec::with_capacity(n)` has capacity exactly `n`.
- `reserve(k)` on an empty vector gives an abstract allocator's answer, at least `k` and at least the old capacity (`Vecs.Reserves`).
- Awaiting a completion yields its `get_return_value`.

## Model

| member | source | states |
|---|---|---|
| Errors.CheckError | src/errors.rs:32-42 | a status is `Ok` exactly when it is non-negative and never panics; a negative status is a `RadosError` carrying that code and `strerror(-code)`, or `Utf8Error` exactly when that message is not UTF-8 |
| Errors.ErrorEq | src/errors.rs:84-91 | two errors are equal only if both are `RadosError`, and two `RadosError`s are equal exactly when their codes are |
| Errors.ErrorEqIgnoresMessage | src/errors.rs:87 | `RadosError`s with the same code are equal whatever their messages |
| Errors.ErrorEqNotReflexive | src/errors.rs:88 | an error equals itself exactly when it is a `RadosError` |
| Errors.ErrorEqIsPartialEquivalence | src/errors.rs:84-91 | error equality is symmetric and transitive |
| Errors.ErrorRange | src/errors.rs:80-82 | `ERROR_RANGE` is the error of status -34: `RadosError(-34, strerror(34))`, or `Utf8Error` when that message is not UTF-8 |
| Errors.MatchesErrorRange | src/errors.rs:32-42 | a negative status classifies to an error equal to `ERROR_RANGE` exactly when it is -34 and the message for 34 is UTF-8 |
| Errors.AsCInt | src/cluster.rs:28 | `as c_int` keeps the value when it fits 32 bits and otherwise differs from it by a multiple of 2^32 |
| Utils.CCharPtrToString | src/utils.rs:5-15 | a null pointer or zero length gives the empty string; valid UTF-8 gives exactly the `len` bytes; invalid gives the empty string; the result is UTF-8 and never longer than `len` |
| Utils.CCharPtrToStringRoundTrip | src/utils.rs:10-12 | any string's bytes, read back through a pointer and its length, give the string back |
| Utils.CCharPtrToStringIsAllOrNothing | src/utils.rs:5-15 | the result is either the empty string or all `len` bytes |
| Utils.CStringNew | src/io.rs:23 | `CString::new` succeeds exactly when there is no NUL, and otherwise reports the first NUL's position |
| Utils.CStringIo | src/object.rs:155-156 | the NUL error is wrapped as an I/O error with the same position |
| Utils.Unwrap | src/object.rs:114-115 | `unwrap` keeps a success and turns any error into a panic |
| Io.OpenIoCtx | src/io.rs:21-35 | opening a context succeeds exactly when the pool name has no NUL and the status is non-negative; a NUL fails first, with its position |
| Io.NewCompletion | src/io.rs:52-66 | creating a completion succeeds exactly when the status is non-negative |
| Io.Initiated | src/object.rs:173-174 | a started operation passes on status 0, panics on a positive status, and returns the classified error on a negative one |
| Io.GetReturnValue | src/io.rs:86-95 | a non-negative return value is the result; a negative one is its classified error; it never panics |
| Waker.SetWaker | src/io.rs:68-78 | afterwards the slot holds the new waker; a waker it displaced is woken and freed; an empty slot wakes nobody |
| Waker.Callback | src/io.rs:158-164 | the callback empties the slot and wakes and frees what it took; with an empty slot it changes nothing |
| Waker.Release | src/io.rs:131-142 | drop empties the slot and frees what it held without waking it |
| Waker.StepKeepsOwnership | src/io.rs:71 | each swap preserves exactly-once ownership: every installed waker is either in the slot or freed, never both |
| Waker.RunKeepsOwnership | src/io.rs:71 | ownership holds after any interleaving of installs, callbacks and drops |
| Waker.LateCallbacksDoNothing | src/io.rs:160-163 | callbacks that find the slot empty leave it unchanged |
| Waker.WokenAndFreedAtMostOnce | src/io.rs:71 | in any interleaving no waker is woken twice or freed twice |
| Waker.EveryWakerFreedExactlyOnce | src/io.rs:135-139 | after drop and any late callbacks, every waker ever installed was freed exactly once and woken at most once |
| Waker.Poll | src/io.rs:147-154 | `poll` is ready exactly when the operation is complete, with its return value and the slot untouched; otherwise it installs the task's waker, and a waker it displaces is woken and freed; it preserves exactly-once ownership |
| Waker.PollLosesWakeupAsWritten | src/io.rs:148-152 | a callback between the completion check and the install leaves the pending task's waker never woken |
| Waker.RecheckedPollNeverLosesWakeup | src/io.rs:147-154 | with a second completion check after the install, no interleaving loses the wake-up |
| Xattr.TurnOf | src/xattr.rs:44-61 | a positive status panics, a negative one fails with its classified error, length 0 ends the drain, a non-UTF-8 name fails with `Utf8Error`, otherwise an entry of the name and the first `len` data bytes |
| Xattr.DrainFrom | src/xattr.rs:39-64 | the drained entries have UTF-8 names and nonempty values, and there are at most as many as replies |
| Xattr.DrainStopsAtEnd | src/xattr.rs:39-64 | a drain that succeeds holds one entry per reply up to the first reply that is not an attribute, and that reply ends the iterator |
| Xattr.DrainCollectsEntries | src/xattr.rs:39-64 | when the replies are attributes up to one that ends the iterator, the drain succeeds with one entry for each of them |
| Xattr.DrainedNames | src/xattr.rs:53-63 | the entries drained up to the end of the iterator are named, in order, by those replies |
| Xattr.DrainedValue | src/xattr.rs:57-63 | the i-th entry drained holds the first `len` bytes of the i-th reply's data |
| Xattr.XattrsOfKeys | src/xattr.rs:33-66 | for a live handle whose replies are attributes up to the end, the map's keys are exactly those replies' names |
| Xattr.XattrsOfLastWins | src/xattr.rs:39-64 | for a live handle, a reply whose name no later reply repeats gives that name the first `len` bytes of its data |
| Xattr.ContinuationByteNameFails | src/xattr.rs:53-56 | an attribute name that is one lone continuation byte fails the drain with `Utf8Error` |
| Xattr.DrainedEntriesMatchReplies | src/xattr.rs:54-60 | the i-th collected entry is the i-th reply's name with exactly the first `len` bytes of its data |
| Xattr.ToMapSnoc | src/xattr.rs:63 | storing one more entry is a map insertion |
| Xattr.ToMapLastWins | src/xattr.rs:63 | when a name repeats, the value of its last entry wins |
| Xattr.ToMapKeys | src/xattr.rs:63 | the map's keys are exactly the drained names |
| Xattr.XattrsOf | src/xattr.rs:33-37 | a null handle gives the empty map |
| Xattr.DrainIgnoresLaterReplies | src/xattr.rs:49-51 | once a reply ends the drain, what the iterator would answer afterwards makes no difference |
| Xattr.DrainFailsAtFirstFailure | src/xattr.rs:44-47 | a failing reply ends the drain with its own error, whatever entries came before |
| Xattr.Finish | src/xattr.rs:46-51 | a turn that is not an entry ends the drain: a positive status panics, a failure returns its error, and the end of the iterator returns exactly the map built so far |
| Xattr.FromIter | src/xattr.rs:33-67 | the loop computes the drain's result; a null handle makes no call; every call but the last yielded an entry, and the last did not |
| Xattr.EndCalls | src/xattr.rs:24-30 | `rados_getxattrs_end` runs at most once, and exactly when the handle is not null |
| Objects.Read | src/object.rs:64-88 | an empty buffer gives `Ok(0)`; otherwise success exactly when every stage passes, with the completion's count; the first stage that fails gives the result: a NUL in the pool name is a `NulError` at its position, a failed context or completion is its classified error, a NUL in the object name is an I/O error at its position, a negative start status is its classified error and a positive one panics, and a negative return value is its classified error |
| Objects.Write | src/object.rs:90-110 | success exactly when every stage passes, with the completion's count; the first stage that fails gives the result, with the same error for each stage as `read` |
| Objects.WriteFull | src/object.rs:112-131 | success reports `data.len()` whatever the completion returned; a NUL in the pool name or a failed context is its error; completion creation failing or a NUL in the object name panics |
| Objects.Append | src/object.rs:133-151 | success is the completion's count, with the same errors and panics as `write_full` |
| Objects.SetXattr | src/object.rs:218-242 | success exactly when every stage passes and the name has no NUL; the count is discarded; each stage that fails gives its own error, a NUL in the object or attribute name being an I/O error at its position |
| Objects.AttemptOutcome | src/object.rs:162-178 | one round succeeds exactly when every stage passes, with the first `size` bytes of the buffer; a failed completion or start is its classified error, a positive start status panics, a negative return value is its classified error |
| Objects.Retried | src/object.rs:176-187 | a round is retried exactly when the read started, its awaited error equals `OVERFLOW_ERROR` and the capacity is below `MAX_BUF_SIZE`; a retried round is one whose return value was that error |
| Objects.XattrSetup | src/object.rs:154-158 | the setup passes exactly when the context opens and neither name has a NUL; otherwise the first failing stage gives the error: a `NulError` for the pool name, the classified context error, or an I/O error at the NUL of the object name, then of the attribute name |
| Objects.GetXattr | src/object.rs:153-191 | starts at 64; retries exactly on an overflow error while below the maximum, each time offering at least double; the first round that is not retried decides the result; setup errors make no round and are returned as the setup's own error |
| Objects.GetXattrRoundsBounded | src/object.rs:181-182 | the second-to-last offer, at least 64·2^(n-2), is below the maximum, which bounds the number of rounds |
| Objects.GetXattrs | src/object.rs:193-216 | success exactly when the call is submitted, its completion succeeds and the drain succeeds; each failing stage gives its own error (pool-name `NulError`, context, object-name I/O error, completion, start), a positive start status panics, a negative return value is its classified error, and after a successful await the result is exactly the drain's, failures included; `rados_getxattrs_end` runs once exactly when a handle was produced |
| Pools.RetriesSnapList | src/pool.rs:174-177 | the retry test holds exactly for a negative status whose error equals `ERROR_RANGE` |
| Pools.SnapOutcome | src/pool.rs:168-187 | a non-negative reply `n` gives exactly `n` ids; a non-range error is returned; a range error not retried becomes "too many snapshots"; it never panics |
| Pools.SnapshotList | src/pool.rs:155-188 | starts at 16; every offer is at most 2^31-1 and at least doubles the last; every call but the last got the range error; the last reply decides the result; a range error ends the loop only when the next capacity would exceed 2^31-1 |
| Pools.SnapshotListCallsBounded | src/pool.rs:158-160 | `snapshot_list` calls the backend at most 27 times |
| Pools.SnapCapacityBound | src/pool.rs:158 | 16·2^k stays within 2^31-1 only for k at most 26 |
| Pools.SnapNameBytes | src/pool.rs:224-231 | the name is the bytes of the 256-byte buffer before its first NUL, or all of them |
| Pools.SnapshotGetName | src/pool.rs:208-233 | success exactly when the context opens and the status is non-negative, with the lossily decoded name; a NUL in the pool name is a `NulError` at its position, a failed context is its classified error, and a negative status is its classified error |
| Pools.Next | src/pool.rs:265-292 | the iterator yields an object exactly when the status is non-negative, in this pool and named by the entry |
| Pools.NonUtf8EntryYieldsEmptyName | src/pool.rs:285 | an entry name that is not UTF-8 still yields an object, with the empty name |
| Pools.AsciiEntryNameIsKept | src/pool.rs:284-290 | an entry name that is ASCII yields an object with exactly that name |
| Pools.Take | src/pool.rs:262-292 | what a consumer receives is the successive yielded objects, no more than it asked for, and it receives fewer only when the next reply is an error |
| Pools.TakeStopsAtFirstError | src/pool.rs:284 | if the first n replies succeed and the next fails, the listing has exactly n objects |
| Pools.NextCallsCloseNothing | src/pool.rs:262-292 | `next()` calls alone never close the listing |
| Pools.IterNext | src/pool.rs:265-292 | `next()` on a live iterator makes one `rados_nobjects_list_next2` call at the current position, keeps the earlier calls, and yields that reply's object |
| Pools.IterDrop | src/pool.rs:295-301 | drop appends one close to the calls made and marks the iterator dropped |
| Pools.DroppedClosesOnce | src/pool.rs:295-301 | a dropped iterator has closed the listing exactly once, as its last call, after `next()` calls only |
| Pools.LiveNeverClosed | src/pool.rs:295-301 | an iterator that is not dropped has not closed the listing |
| Pools.AfterNexts | src/pool.rs:265-292 | n `next()` calls leave the iterator live, n positions further on |
| Pools.NextsThenDropCloseOnce | src/pool.rs:262-301 | for any number of `next()` calls before the drop, zero included, the calls are those `next()`s in order and then a single close |
| Pools.Consume | src/pool.rs:265-292 | a consumer taking at most `wanted` objects receives what `Take` describes, and calls `next()` once more than it received exactly when it stopped on an error |
| Pools.ConsumeAndDrop | src/pool.rs:262-301 | the listing yields what `Take` describes; `rados_nobjects_list_close` runs exactly once, as the last call, after exactly the `next()` calls the consumer made |
| Cluster.FetchPoolBufferAsWritten | src/cluster.rs:50-83 | the first call is offered 500 bytes; a second call is made exactly when the first length exceeds 500, offered at least that length; a negative length is its classified error; otherwise the buffer holds exactly the reported length |
| Cluster.PoolListOverrunsAsWritten | src/cluster.rs:67-79 | as written, a second length larger than the reserved capacity becomes the buffer's length |
| Cluster.FetchPoolBuffer | src/cluster.rs:50-83 | the fetch with the overrun reported as the range error: the bytes never exceed the capacity last offered |
| Cluster.FetchAgreesWhenWithinCapacity | src/cluster.rs:67-81 | the corrected fetch equals the one as written exactly when the latter stays within its capacity |
| Cluster.SegmentLength | src/cluster.rs:88 | `read_until(0)` consumes up to and including the first NUL, or to the end |
| Cluster.ParsePoolNames | src/cluster.rs:85-97 | every parsed name is nonempty and free of NUL, and there are at most half as many names as bytes |
| Cluster.ParseJoinRoundTrip | src/cluster.rs:85-97 | parsing NUL-terminated names followed by an empty segment gives back those names in order, whatever follows |
| Cluster.ParseThreePools | src/cluster.rs:85-96 | `a\0b\0c\0\0` parses to `a`, `b`, `c` |
| Cluster.ParseStopsAtEmptySegment | src/cluster.rs:89-90 | names after the first empty segment are never parsed |
| Cluster.UnterminatedTailLosesLastByte | src/cluster.rs:88-94 | a final segment without NUL loses its last byte, and one of a single byte is dropped |
| Cluster.PoolList | src/cluster.rs:50-100 | fails exactly when the fetch fails; otherwise one pool per parsed name, in order, lossily decoded |
| Cluster.PoolLookup | src/cluster.rs:24-32 | a NUL in the name is a `NulError`; a non-negative id gives the named pool; a negative id that fits a C `int` is its classified error; a wider negative id fails exactly when its low 32 bits are negative, with the classified error of those 32 bits |
| Cluster.LookupTruncatesId | src/cluster.rs:27-28 | the id -2^32 is taken for success, because its low 32 bits are zero |

## Left out

- src/rados.rs (connection bootstrap), `Cluster::new`, `pool_create`, `pool_delete`: I/O plumbing with no logic beyond one `check_error`.
- `Object::stat`, `truncate`, `remove`, `Pool::stat` and its field-by-field copy: FFI plumbing.
- `snapshot_create`, `snapshot_remove`, `snapshot_rollback`, `snapshot_lookup`, opening `list_objects`: FFI plumbing of the same shape as the modelled operations.
- The object list's key and namespace conversions: their results are discarded.
- `Display`, `Error::source` and the `From` conversions, which are plain constructors.
- The text of `strerror` and the substitution done by `from_utf8_lossy`: both are parameters.
- The `Arc`/`transmute` reference passed to the callback and the memory ordering of the `AtomicPtr`: each swap is one atomic step.
- The dead helpers `wait_for_complete`, `is_complete_and_cb`, `wait_for_complete_and_cb`.
- The async runtime: awaiting a completion is taken to end with its return value.
- `OVERFLOW_ERROR` and `MAX_BUF_SIZE`: src/object.rs imports `OVERFLOW_ERROR` from `crate::errors`, but src/errors.rs does not define it; `MAX_BUF_SIZE` comes from src/buffer.rs, which is not part of this model. `GetXattr` takes both as parameters.
- The iterator's use after drop: Rust's ownership rules it out, so `Pools.IterNext` requires a live iterator.
- Objects.GetXattr: the buffer length is the reported size even when it exceeds the capacity offered; librados answers such a request with an error instead.
- Pools.SnapshotList: same as `GetXattr` for the id count.
- Errors.CheckError: `-num` for `i32::MIN` would overflow in Rust; the model negates it exactly.
- Pools.SnapOutcome: the "unexpected success" branch is not modelled, since a negative status never classifies as `Ok` (`Errors.CheckError`).
- Cluster.PoolLookup: the id is read as a 64-bit value, as librados declares it; the generated bindings are not part of this model.
- Reading pool-list bytes beyond the reserved capacity is undefined behaviour in Rust, so `Cluster.PoolList` is built on the corrected fetch.

## Findings

| source | as written | input that shows it | evidently intended | confidence | as-written member | corrected member |
|---|---|---|---|---|---|---|
| src/cluster.rs:67-79 | the second `rados_pool_list` length is passed to `set_len` without comparing it with the capacity reserved from the first length | the pool list needs 600 bytes at the first call and 700 at the second | treat a second length beyond the capacity as an error rather than read past the allocation | medium; not executed | Cluster.PoolListOverrunsAsWritten | Cluster.FetchPoolBuffer |
| src/io.rs:147-154 | `poll` checks completion, then installs the waker, and does not check again | the callback fires between the check and the install; it finds the slot empty | re-check completion after installing the waker | high; not executed | Waker.PollLosesWakeupAsWritten | Waker.RecheckedPollNeverLosesWakeup |

=== FILE: bytes.dfy ===
/**
 Bytes as the source sees them: `u8` / `c_char` values, Rust strings represented
 by their UTF-8 encoding, the NUL terminator of C strings, and the UTF-8
 well-formedness check that `str::from_utf8` and `CStr::to_str` perform
 (Table 3-7 of the Unicode Standard, the same rules as RFC 3629).
 */
module Bytes {

  /** One `u8` (a `c_char` reinterpreted as unsigned). */
  type Byte = b: int | 0 <= b < 0x100

  /** A Rust `String` or `&str`, given by its UTF-8 bytes. */
  type Text = seq<Byte>

  /** The C string terminator. */
  const NUL: Byte := 0

  /** Index of the first NUL in `s`, or `|s|` when there is none. */
  function FirstNul(s: seq<Byte>): (i: nat)
    ensures i <= |s|
    ensures i < |s| ==> s[i] == NUL
    ensures forall j :: 0 <= j < i ==> s[j] != NUL
  {
    if |s| == 0 then 0
    else if s[0] == NUL then 0
    else 1 + FirstNul(s[1..])
  }

  predicate IsContinuation(b: Byte) {
    0x80 <= b <= 0xBF
  }

  /**
   Length of the well-formed UTF-8 sequence that starts `s`, or 0 when `s`
   does not start with one (overlong forms, surrogates and code points above
   U+10FFFF are ill-formed).
   */
  function ScalarLength(s: seq<Byte>): (n: nat)
    ensures n <= |s| && n <= 4
    ensures n > 0 ==> |s| > 0
    ensures |s| > 0 && s[0] < 0x80 ==> n == 1
    ensures |s| > 0 && s[0] >= 0x80 ==> n != 1
  {
    if |s| == 0 then 0
    else
      var b0 := s[0];
      if b0 < 0x80 then 1
      else if 0xC2 <= b0 <= 0xDF then
        (if |s| >= 2 && IsContinuation(s[1]) then 2 else 0)
      else if b0 == 0xE0 then
        (if |s| >= 3 && 0xA0 <= s[1] <= 0xBF && IsContinuation(s[2]) then 3 else 0)
      else if 0xE1 <= b0 <= 0xEC || 0xEE <= b0 <= 0xEF then
        (if |s| >= 3 && IsContinuation(s[1]) && IsContinuation(s[2]) then 3 else 0)
      else if b0 == 0xED then
        (if |s| >= 3 && 0x80 <= s[1] <= 0x9F && IsContinuation(s[2]) then 3 else 0)
      else if b0 == 0xF0 then
        (if |s| >= 4 && 0x90 <= s[1] <= 0xBF && IsContinuation(s[2]) && IsContinuation(s[3]) then 4 else 0)
      else if 0xF1 <= b0 <= 0xF3 then
        (if |s| >= 4 && IsContinuation(s[1]) && IsContinuation(s[2]) && IsContinuation(s[3]) then 4 else 0)
      else if b0 == 0xF4 then
        (if |s| >= 4 && 0x80 <= s[1] <= 0x8F && IsContinuation(s[2]) && IsContinuation(s[3]) then 4 else 0)
      else 0
  }

  /** `s` is a sequence of well-formed UTF-8 scalar encodings. */
  predicate Utf8Valid(s: seq<Byte>)
    decreases |s|
  {
    |s| == 0 || (var n := ScalarLength(s); n > 0 && Utf8Valid(s[n..]))
  }

  /** Bytes below 0x80 only. */
  predicate IsAscii(s: seq<Byte>) {
    forall i :: 0 <= i < |s| ==> s[i] < 0x80
  }

  /** ASCII text is valid UTF-8. */
  lemma {:induction false} AsciiIsUtf8(s: seq<Byte>)
    requires IsAscii(s)
    ensures Utf8Valid(s)
    decreases |s|
  {
    if |s| > 0 {
      assert ScalarLength(s) == 1;
      assert IsAscii(s[1..]) by {
        forall i | 0 <= i < |s[1..]| ensures s[1..][i] < 0x80 {
          assert s[1..][i] == s[i + 1];
        }
      }
      AsciiIsUtf8(s[1..]);
    }
  }

  /** A byte at or above 0x80 that no valid sequence can start with. */
  lemma LoneContinuationIsNotUtf8(b: Byte)
    requires IsContinuation(b)
    ensures !Utf8Valid([b])
  {
  }
}

=== FILE: cluster.dfy ===
/**
 Cluster-level operations (`Cluster` in cluster.rs): fetching the
 NUL-separated pool-name list, splitting it, and looking a pool up by name.
 */
module Cluster {

  import opened Bytes
  import opened Errors
  import opened Utils
  import opened Vecs
  import opened Pools

  /** The capacity of the first `rados_pool_list` call. */
  const POOL_LIST_CAPACITY: nat := 500

  /** One reply of `rados_pool_list`: the length it reports and the buffer afterwards. */
  datatype PoolListReply = PoolListReply(len: CInt, buffer: nat -> Byte)

  /** The fetched bytes (or error) and the capacity offered to each call. */
  datatype PoolFetch = PoolFetch(bytes: Result<seq<Byte>>, requested: seq<nat>)

  /**
   The fetch of `pool_list()` as written: offer 500 bytes; when the reported
   length is larger, reserve at least that much and call exactly once more,
   then take as many bytes as the second call reports, whatever capacity
   was reserved. `backend(k, cap)` answers the `k`-th call offered `cap` bytes.
   */
  function FetchPoolBufferAsWritten(backend: (nat, nat) -> PoolListReply, alloc: Allocator, strerror: MessageTable): (f: PoolFetch)
    requires Reserves(alloc)
    ensures 1 <= |f.requested| <= 2 && f.requested[0] == POOL_LIST_CAPACITY
    ensures !f.bytes.Panic?
    ensures |f.requested| == 2 <==> backend(0, POOL_LIST_CAPACITY).len > POOL_LIST_CAPACITY
    ensures |f.requested| == 2 ==> f.requested[1] >= backend(0, POOL_LIST_CAPACITY).len
    ensures var last := backend(|f.requested| - 1, f.requested[|f.requested| - 1]);
            && (last.len < 0 ==> f.bytes == Err(CheckError(last.len, strerror).error))
            && (last.len >= 0 ==> f.bytes == Ok(Filled(last.buffer, last.len)))
  {
    var first := backend(0, POOL_LIST_CAPACITY);
    if first.len < 0 then PoolFetch(CheckError(first.len, strerror).PropagateFailure(), [POOL_LIST_CAPACITY])
    else if first.len > POOL_LIST_CAPACITY then
      var cap := alloc(POOL_LIST_CAPACITY, first.len);
      var second := backend(1, cap);
      if second.len < 0 then PoolFetch(CheckError(second.len, strerror).PropagateFailure(), [POOL_LIST_CAPACITY, cap])
      else PoolFetch(Ok(Filled(second.buffer, second.len)), [POOL_LIST_CAPACITY, cap])
    else PoolFetch(Ok(Filled(first.buffer, first.len)), [POOL_LIST_CAPACITY])
  }

  /** Always answers `len` with an all-zero buffer. */
  function Reports(first: CInt, second: CInt): (nat, nat) -> PoolListReply {
    (k: nat, cap: nat) => PoolListReply(if k == 0 then first else second, (i: nat) => NUL)
  }

  /** Grows to exactly the requested size. */
  function ExactAllocator(): (alloc: Allocator)
    ensures Reserves(alloc)
  {
    (cap: nat, additional: nat) => if cap >= additional then cap else additional
  }

  /**
   As written, a pool list that grows between the two calls (600 bytes
   needed, then 700) yields more bytes than were reserved: the buffer's
   length is set past its capacity.
   */
  lemma PoolListOverrunsAsWritten(strerror: MessageTable)
    ensures var f := FetchPoolBufferAsWritten(Reports(600, 700), ExactAllocator(), strerror);
            && f.requested == [POOL_LIST_CAPACITY, 600]
            && f.bytes.Ok? && |f.bytes.value| == 700 > f.requested[1]
  {
  }

  /**
   The fetch of `pool_list()`, corrected: a second reply longer than the
   capacity it was offered is reported as the range error instead of being
   read past the allocation.
   */
  function FetchPoolBuffer(backend: (nat, nat) -> PoolListReply, alloc: Allocator, strerror: MessageTable): (f: PoolFetch)
    requires Reserves(alloc)
    ensures 1 <= |f.requested| <= 2 && f.requested[0] == POOL_LIST_CAPACITY
    ensures !f.bytes.Panic?
    ensures |f.requested| == 2 <==> backend(0, POOL_LIST_CAPACITY).len > POOL_LIST_CAPACITY
    ensures |f.requested| == 2 ==> f.requested[1] >= backend(0, POOL_LIST_CAPACITY).len
    ensures f.bytes.Ok? ==> |f.bytes.value| <= f.requested[|f.requested| - 1]
    ensures var last := backend(|f.requested| - 1, f.requested[|f.requested| - 1]);
            && (last.len < 0 ==> f.bytes == Err(CheckError(last.len, strerror).error))
            && (0 <= last.len <= f.requested[|f.requested| - 1] ==> f.bytes == Ok(Filled(last.buffer, last.len)))
            && (last.len > f.requested[|f.requested| - 1] ==> f.bytes == Err(ErrorRange(strerror)))
  {
    var asWritten := FetchPoolBufferAsWritten(backend, alloc, strerror);
    var cap := asWritten.requested[|asWritten.requested| - 1];
    if asWritten.bytes.Ok? && |asWritten.bytes.value| > cap then
      PoolFetch(Err(ErrorRange(strerror)), asWritten.requested)
    else asWritten
  }

  /** The corrected fetch differs from the code as written only where the latter overruns. */
  lemma FetchAgreesWhenWithinCapacity(backend: (nat, nat) -> PoolListReply, alloc: Allocator, strerror: MessageTable)
    requires Reserves(alloc)
    ensures var w := FetchPoolBufferAsWritten(backend, alloc, strerror);
            (w.bytes.Ok? ==> |w.bytes.value| <= w.requested[|w.requested| - 1]) <==>
            FetchPoolBuffer(backend, alloc, strerror) == w
  {
  }

  /**
   `read_until(0)` on a cursor: the number of bytes consumed, up to and
   including the first NUL, or to the end of the buffer.
   */
  function SegmentLength(bytes: seq<Byte>): (read: nat)
    ensures read <= |bytes|
    ensures read == 0 <==> |bytes| == 0
    ensures read >= 1 ==> NUL !in bytes[..read - 1]
    ensures read >= 1 ==> bytes[read - 1] == NUL || read == |bytes|
  {
    var i := FirstNul(bytes);
    if i < |bytes| then i + 1 else |bytes|
  }

  /**
   The parse loop of `pool_list()`: take segments up to each NUL, drop their
   last byte, and stop at the end of the buffer or at a segment of one byte.
   */
  function ParsePoolNames(bytes: seq<Byte>): (names: seq<seq<Byte>>)
    ensures |names| <= |bytes| / 2
    ensures forall i :: 0 <= i < |names| ==> ValidPoolName(names[i])
    decreases |bytes|
  {
    var read := SegmentLength(bytes);
    if read == 0 || read == 1 then []
    else [bytes[..read - 1]] + ParsePoolNames(bytes[read..])
  }

  /**
   The names in the byte form librados produces, each followed by its NUL;
   the empty segment that ends the list is not included.
   */
  function JoinNames(names: seq<seq<Byte>>): (bytes: seq<Byte>)
    ensures |bytes| >= |names|
  {
    if names == [] then [] else names[0] + [NUL] + JoinNames(names[1..])
  }

  /** A name librados can return: nonempty and free of NUL. */
  predicate ValidPoolName(name: seq<Byte>) {
    |name| >= 1 && NUL !in name
  }

  /**
   Parsing undoes joining, in order, and ignores whatever follows the
   terminating empty segment.
   */
  lemma {:induction false} ParseJoinRoundTrip(names: seq<seq<Byte>>, rest: seq<Byte>)
    requires forall i :: 0 <= i < |names| ==> ValidPoolName(names[i])
    ensures ParsePoolNames(JoinNames(names) + [NUL] + rest) == names
    decreases |names|
  {
    if names == [] {
      ParseEmptySegment(rest);
      assert JoinNames(names) + [NUL] + rest == [NUL] + rest;
    } else {
      var tail := JoinNames(names[1..]) + [NUL] + rest;
      assert JoinNames(names) + [NUL] + rest == names[0] + [NUL] + tail;
      ParseNamedSegment(names[0], tail);
      ParseJoinRoundTrip(names[1..], rest);
      assert names == [names[0]] + names[1..];
    }
  }

  /** A segment that is a lone NUL ends the parse. */
  lemma ParseEmptySegment(rest: seq<Byte>)
    ensures ParsePoolNames([NUL] + rest) == []
  {
  }

  /** A valid name followed by its NUL is parsed as that name, then parsing resumes after it. */
  lemma ParseNamedSegment(n: seq<Byte>, tail: seq<Byte>)
    requires ValidPoolName(n)
    ensures ParsePoolNames(n + [NUL] + tail) == [n] + ParsePoolNames(tail)
  {
    var bytes := n + [NUL] + tail;
    FirstNulAfter(n, tail);
    var read := SegmentLength(bytes);
    assert read == |n| + 1;
    assert ParsePoolNames(bytes) == [bytes[..read - 1]] + ParsePoolNames(bytes[read..]);
    assert bytes[..read - 1] == n;
    assert bytes[read..] == tail;
  }

  /** The first NUL of `n + [NUL] + tail` is the one after `n` when `n` has none. */
  lemma FirstNulAfter(n: seq<Byte>, tail: seq<Byte>)
    requires NUL !in n
    ensures FirstNul(n + [NUL] + tail) == |n|
  {
    var bytes := n + [NUL] + tail;
    assert bytes[|n|] == NUL;
    assert forall j :: 0 <= j < |n| ==> bytes[j] == n[j];
  }

  /** The listing `a\0b\0c\0\0` names the pools `a`, `b`, `c`, in that order. */
  lemma ParseThreePools()
    ensures ParsePoolNames([97, 0, 98, 0, 99, 0, 0]) == [[97], [98], [99]]
  {
    var names: seq<seq<Byte>> := [[97], [98], [99]];
    assert JoinNames(names) + [NUL] + [] == [97, 0, 98, 0, 99, 0, 0];
    ParseJoinRoundTrip(names, []);
  }

  /** Names after an empty segment are never reached. */
  lemma ParseStopsAtEmptySegment(names: seq<seq<Byte>>, later: seq<Byte>)
    requires forall i :: 0 <= i < |names| ==> ValidPoolName(names[i])
    ensures |ParsePoolNames(JoinNames(names) + [NUL] + later)| == |names|
  {
    ParseJoinRoundTrip(names, later);
  }

  /**
   A last segment without a terminating NUL loses its last byte, and one of
   a single byte is not reported at all.
   */
  lemma UnterminatedTailLosesLastByte(tail: seq<Byte>)
    requires NUL !in tail
    ensures |tail| >= 2 ==> ParsePoolNames(tail) == [tail[..|tail| - 1]]
    ensures |tail| <= 1 ==> ParsePoolNames(tail) == []
  {
    assert SegmentLength(tail) == |tail|;
    if |tail| >= 2 {
      assert tail[|tail|..] == [];
    }
  }

  /**
   `pool_list()`: the parsed names of the (corrected) fetch, each lossily
   decoded into a pool handle.
   */
  function PoolList(backend: (nat, nat) -> PoolListReply, alloc: Allocator, lossy: Lossy, strerror: MessageTable): (r: Result<seq<Pool>>)
    requires Reserves(alloc)
    ensures !r.Panic?
    ensures r.Ok? <==> FetchPoolBuffer(backend, alloc, strerror).bytes.Ok?
    ensures r.Err? ==> r.error == FetchPoolBuffer(backend, alloc, strerror).bytes.error
    ensures r.Ok? ==>
              var names := ParsePoolNames(FetchPoolBuffer(backend, alloc, strerror).bytes.value);
              |r.value| == |names| && forall i :: 0 <= i < |names| ==> r.value[i] == Pool(lossy(names[i]))
  {
    var bytes :- FetchPoolBuffer(backend, alloc, strerror).bytes;
    var names := ParsePoolNames(bytes);
    Ok(seq(|names|, i requires 0 <= i < |names| => Pool(lossy(names[i]))))
  }

  /** The 64-bit id `rados_pool_lookup` returns. */
  type PoolId = x: int | -0x8000_0000_0000_0000 <= x < 0x8000_0000_0000_0000

  /**
   `pool_lookup(name)`: a NUL in the name is a `NulError`; a negative id,
   cut to a C `int`, is classified; otherwise a handle on the named pool.
   */
  function PoolLookup(name: Text, id: PoolId, strerror: MessageTable): (r: Result<Pool>)
    ensures !r.Panic?
    ensures NUL in name ==> r == Err(NulError(FirstNul(name)))
    ensures r.Ok? ==> r.value == Pool(name)
    ensures NUL !in name && id >= 0 ==> r.Ok?
    ensures NUL !in name && -0x8000_0000 <= id < 0 ==> r == Err(CheckError(id, strerror).error)
    ensures NUL !in name && id < 0 ==> (r.Ok? <==> AsCInt(id) >= 0)
    ensures NUL !in name && id < 0 && AsCInt(id) < 0 ==> r == Err(CheckError(AsCInt(id), strerror).error)
  {
    var _ :- CStringNew(name);
    var _ :- if id < 0 then CheckError(AsCInt(id), strerror) else Ok(());
    Ok(Pool(name))
  }

  /**
   The cast to a C `int` keeps only the low 32 bits, so a negative id such
   as `-2^32` is taken for success.
   */
  lemma LookupTruncatesId(name: Text, strerror: MessageTable)
    requires NUL !in name
    ensures PoolLookup(name, -0x1_0000_0000, strerror) == Ok(Pool(name))
  {
  }
}

=== FILE: errors.dfy ===
/**
 The crate's error type, the classification of C status codes (`check_error`),
 the code-only equality the retry loops match on, and `ERROR_RANGE`.
 */
module Errors {

  import opened Bytes

  /** A C `int`. */
  type CInt = x: int | -0x8000_0000 <= x < 0x8000_0000

  /** The `ERANGE` errno ("result too large" / buffer too small). */
  const ERANGE: int := 34

  /**
   The crate's `Error`. The payloads the model cannot see are abstracted:
   a `NulError` keeps the position of the offending NUL, the only `IoError`
   the core builds wraps such a `NulError`, and a `Utf8Error` carries nothing.
   */
  datatype Error =
    | RadosError(code: int, message: Text)
    | NulError(position: nat)
    | IoError(nulPosition: nat)
    | Utf8Error
    | OtherError(description: string)

  /**
   The outcome of an operation: a value, an error returned to the caller, or
   a panic (a failed `assert!` or `unwrap`), which never returns.
   */
  datatype Result<+T> = Ok(value: T) | Err(error: Error) | Panic {

    predicate IsFailure() {
      !Ok?
    }

    function PropagateFailure<U>(): (r: Result<U>)
      requires !Ok?
    {
      if Err? then Err(error) else Panic
    }

    function Extract(): T
      requires Ok?
    {
      value
    }
  }

  /**
   `strerror`: the text of the backend's message for an errno, as the bytes
   before its NUL terminator. The table itself is not part of this model.
   */
  type MessageTable = int -> Text

  /**
   `check_error`: a non-negative status is success; a negative one is an error
   carrying the same code and the message for `-code`, unless that message is
   not valid UTF-8, in which case the conversion error is returned instead.
   */
  function CheckError(code: int, strerror: MessageTable): (r: Result<()>)
    ensures r.Ok? <==> code >= 0
    ensures !r.Panic?
    ensures r.Err? ==> r.error.RadosError? || r.error.Utf8Error?
    ensures r.Err? && r.error.RadosError? ==> r.error.code == code && r.error.message == strerror(-code)
    ensures r.Err? ==> (r.error.Utf8Error? <==> !Utf8Valid(strerror(-code)))
  {
    if code >= 0 then Ok(())
    else
      var message := strerror(-code);
      if Utf8Valid(message) then Err(RadosError(code, message)) else Err(Utf8Error)
  }

  /**
   `impl PartialEq for Error`: two backend errors are equal when their codes
   are; every comparison involving another variant is false.
   */
  function ErrorEq(a: Error, b: Error): (eq: bool)
    ensures eq ==> a.RadosError? && b.RadosError?
    ensures a.RadosError? && b.RadosError? ==> (eq <==> a.code == b.code)
  {
    match (a, b)
    case (RadosError(code1, _), RadosError(code2, _)) => code1 == code2
    case _ => false
  }

  /** Messages play no part in equality. */
  lemma ErrorEqIgnoresMessage(code: int, m1: Text, m2: Text)
    ensures ErrorEq(RadosError(code, m1), RadosError(code, m2))
  {
  }

  /** Equality is not reflexive: no error other than a backend error equals itself. */
  lemma ErrorEqNotReflexive(e: Error)
    ensures ErrorEq(e, e) <==> e.RadosError?
  {
  }

  /** Equality is symmetric and transitive, i.e. a partial equivalence. */
  lemma ErrorEqIsPartialEquivalence(a: Error, b: Error, c: Error)
    ensures ErrorEq(a, b) ==> ErrorEq(b, a)
    ensures ErrorEq(a, b) && ErrorEq(b, c) ==> ErrorEq(a, c)
  {
  }

  /**
   `ERROR_RANGE`, i.e. `check_error(-34).unwrap_err()`; the unwrap cannot panic
   because a negative code never classifies as success.
   */
  function ErrorRange(strerror: MessageTable): (e: Error)
    ensures e == RadosError(-ERANGE, strerror(ERANGE)) || e == Utf8Error
    ensures e.RadosError? <==> Utf8Valid(strerror(ERANGE))
  {
    CheckError(-ERANGE, strerror).error
  }

  /**
   A classified negative status equals `ERROR_RANGE` exactly when it is
   `-ERANGE` and the `ERANGE` message decodes; if it does not decode, nothing
   equals `ERROR_RANGE`.
   */
  lemma MatchesErrorRange(code: int, strerror: MessageTable)
    requires code < 0
    ensures ErrorEq(CheckError(code, strerror).error, ErrorRange(strerror))
            <==> code == -ERANGE && Utf8Valid(strerror(ERANGE))
  {
  }

  /** Rust's `x as c_int` on a wider integer: keep the low 32 bits, two's complement. */
  function AsCInt(x: int): (c: CInt)
    ensures -0x8000_0000 <= x < 0x8000_0000 ==> c == x
    ensures (x - c) % 0x1_0000_0000 == 0
  {
    var m := x % 0x1_0000_0000;
    if m >= 0x8000_0000 then m - 0x1_0000_0000 else m
  }
}

=== FILE: io.dfy ===
/**
 The steps every asynchronous object operation is built from: opening the
 pool context (`IoCtx::new`), creating the completion (`AioCompletion::new`),
 the status of the call that starts the operation, and the completion's
 return value once it is complete (`get_return_value`).
 */
module Io {

  import opened Bytes
  import opened Errors
  import opened Utils

  /**
   `IoCtx::new`: the pool name must convert to a C string, then the status
   of `rados_ioctx_create` is classified.
   */
  function OpenIoCtx(poolName: Text, code: CInt, strerror: MessageTable): (r: Result<()>)
    ensures r.Ok? <==> NUL !in poolName && code >= 0
    ensures NUL in poolName ==> r == Err(NulError(FirstNul(poolName)))
    ensures NUL !in poolName ==> r == CheckError(code, strerror)
    ensures !r.Panic?
  {
    var _ :- CStringNew(poolName);
    CheckError(code, strerror)
  }

  /** `AioCompletion::new`: the status of `rados_aio_create_completion2`, classified. */
  function NewCompletion(code: CInt, strerror: MessageTable): (r: Result<()>)
    ensures r.Ok? <==> code >= 0
    ensures !r.Panic?
  {
    CheckError(code, strerror)
  }

  /**
   `assert!(code <= 0); check_error(code)?` after a call that starts an
   operation: a positive status panics, a negative one is an error, zero
   means the operation was submitted.
   */
  function Initiated(code: CInt, strerror: MessageTable): (r: Result<()>)
    ensures r.Ok? <==> code == 0
    ensures r.Panic? <==> code > 0
    ensures code < 0 ==> r == CheckError(code, strerror)
  {
    if code > 0 then Panic else CheckError(code, strerror)
  }

  /**
   `get_return_value`: a negative return value is the classified error, a
   non-negative one is the byte count.
   */
  function GetReturnValue(ret: CInt, strerror: MessageTable): (r: Result<nat>)
    ensures r.Ok? <==> ret >= 0
    ensures r.Ok? ==> r.value == ret
    ensures ret < 0 ==> r == Err(CheckError(ret, strerror).error)
    ensures !r.Panic?
  {
    var checked := CheckError(ret, strerror);
    if ret < 0 && checked.IsFailure() then checked.PropagateFailure()
    else Ok(ret % 0x1_0000_0000_0000_0000)  // `ret as usize`
  }
}

=== FILE: objects.dfy ===
/**
 Object operations (`Object` in object.rs): each opens its own pool context,
 creates its own completion, starts one backend operation and awaits it.
 The backend's answers are given as replies: the status of opening the
 context, of creating the completion, of starting the operation, and the
 completion's return value once it has completed.
 */
module Objects {

  import opened Wrappers
  import opened Bytes
  import opened Errors
  import opened Utils
  import opened Io
  import opened Vecs
  import opened Xattr

  /** An object: its pool's name and its own name. */
  datatype Object = Object(poolName: Text, name: Text)

  /**
   The backend's answers for one asynchronous call: the status of
   `rados_aio_create_completion2`, the status of the call that starts the
   operation, and the completion's return value.
   */
  datatype AioReply = AioReply(completionCode: CInt, initCode: CInt, ret: CInt)

  /** Everything before the operation is started succeeded. */
  predicate Prepared(obj: Object, ioctxCode: CInt, a: AioReply) {
    NUL !in obj.poolName && ioctxCode >= 0 && a.completionCode >= 0 && NUL !in obj.name
  }

  /** The operation was accepted by the backend, so the completion is awaited. */
  predicate Submitted(obj: Object, ioctxCode: CInt, a: AioReply) {
    Prepared(obj, ioctxCode, a) && a.initCode == 0
  }

  /** `read(pos, buf)`, where `bufLen` is `buf.len()`; the result is the completion's byte count. */
  function Read(obj: Object, bufLen: nat, ioctxCode: CInt, a: AioReply, strerror: MessageTable): (r: Result<nat>)
    ensures bufLen == 0 ==> r == Ok(0)
    ensures bufLen > 0 ==> (r.Ok? <==> Submitted(obj, ioctxCode, a) && a.ret >= 0)
    ensures bufLen > 0 && r.Ok? ==> r.value == a.ret
    ensures bufLen > 0 && NUL in obj.poolName ==> r == Err(NulError(FirstNul(obj.poolName)))
    ensures bufLen > 0 && NUL !in obj.poolName && ioctxCode < 0 ==> r == Err(CheckError(ioctxCode, strerror).error)
    ensures bufLen > 0 && NUL !in obj.poolName && ioctxCode >= 0 && a.completionCode < 0 ==>
              r == Err(CheckError(a.completionCode, strerror).error)
    ensures bufLen > 0 && NUL !in obj.poolName && ioctxCode >= 0 && a.completionCode >= 0 && NUL in obj.name ==>
              r == Err(IoError(FirstNul(obj.name)))
    ensures bufLen > 0 && Prepared(obj, ioctxCode, a) && a.initCode < 0 ==> r == Err(CheckError(a.initCode, strerror).error)
    ensures bufLen > 0 && Prepared(obj, ioctxCode, a) && a.initCode > 0 ==> r == Panic
    ensures bufLen > 0 && Submitted(obj, ioctxCode, a) && a.ret < 0 ==> r == Err(CheckError(a.ret, strerror).error)
  {
    if bufLen == 0 then Ok(0)
    else
      var _ :- OpenIoCtx(obj.poolName, ioctxCode, strerror);
      var _ :- NewCompletion(a.completionCode, strerror);
      var _ :- CStringIo(obj.name);
      var _ :- Initiated(a.initCode, strerror);
      GetReturnValue(a.ret, strerror)
  }

  /** `write(pos, buf)`: the completion's byte count. */
  function Write(obj: Object, data: seq<Byte>, ioctxCode: CInt, a: AioReply, strerror: MessageTable): (r: Result<nat>)
    ensures r.Ok? <==> Submitted(obj, ioctxCode, a) && a.ret >= 0
    ensures r.Ok? ==> r.value == a.ret
    ensures NUL in obj.poolName ==> r == Err(NulError(FirstNul(obj.poolName)))
    ensures NUL !in obj.poolName && ioctxCode < 0 ==> r == Err(CheckError(ioctxCode, strerror).error)
    ensures NUL !in obj.poolName && ioctxCode >= 0 && a.completionCode < 0 ==>
              r == Err(CheckError(a.completionCode, strerror).error)
    ensures NUL !in obj.poolName && ioctxCode >= 0 && a.completionCode >= 0 && NUL in obj.name ==>
              r == Err(IoError(FirstNul(obj.name)))
    ensures Prepared(obj, ioctxCode, a) && a.initCode < 0 ==> r == Err(CheckError(a.initCode, strerror).error)
    ensures Prepared(obj, ioctxCode, a) && a.initCode > 0 ==> r == Panic
    ensures Submitted(obj, ioctxCode, a) && a.ret < 0 ==> r == Err(CheckError(a.ret, strerror).error)
  {
    var _ :- OpenIoCtx(obj.poolName, ioctxCode, strerror);
    var _ :- NewCompletion(a.completionCode, strerror);
    var _ :- CStringIo(obj.name);
    var _ :- Initiated(a.initCode, strerror);
    GetReturnValue(a.ret, strerror)
  }

  /**
   `write_full(data)`: success reports `data.len()`, whatever count the
   completion returned. Failing to create the completion or an object name
   with a NUL panics (`unwrap`).
   */
  function WriteFull(obj: Object, data: seq<Byte>, ioctxCode: CInt, a: AioReply, strerror: MessageTable): (r: Result<nat>)
    ensures r.Ok? <==> Submitted(obj, ioctxCode, a) && a.ret >= 0
    ensures r.Ok? ==> r.value == |data|
    ensures NUL in obj.poolName ==> r == Err(NulError(FirstNul(obj.poolName)))
    ensures NUL !in obj.poolName && ioctxCode < 0 ==> r == Err(CheckError(ioctxCode, strerror).error)
    ensures NUL !in obj.poolName && ioctxCode >= 0 && (a.completionCode < 0 || NUL in obj.name) ==> r == Panic
    ensures Prepared(obj, ioctxCode, a) && a.initCode < 0 ==> r == Err(CheckError(a.initCode, strerror).error)
    ensures Prepared(obj, ioctxCode, a) && a.initCode > 0 ==> r == Panic
    ensures Submitted(obj, ioctxCode, a) && a.ret < 0 ==> r == Err(CheckError(a.ret, strerror).error)
  {
    var _ :- OpenIoCtx(obj.poolName, ioctxCode, strerror);
    var _ :- Unwrap(NewCompletion(a.completionCode, strerror));
    var _ :- Unwrap(CStringNew(obj.name));
    var _ :- Initiated(a.initCode, strerror);
    var _ :- GetReturnValue(a.ret, strerror);
    Ok(|data|)
  }

  /** `append(data)`: the completion's byte count; same `unwrap`s as `write_full`. */
  function Append(obj: Object, data: seq<Byte>, ioctxCode: CInt, a: AioReply, strerror: MessageTable): (r: Result<nat>)
    ensures r.Ok? <==> Submitted(obj, ioctxCode, a) && a.ret >= 0
    ensures r.Ok? ==> r.value == a.ret
    ensures NUL in obj.poolName ==> r == Err(NulError(FirstNul(obj.poolName)))
    ensures NUL !in obj.poolName && ioctxCode < 0 ==> r == Err(CheckError(ioctxCode, strerror).error)
    ensures NUL !in obj.poolName && ioctxCode >= 0 && (a.completionCode < 0 || NUL in obj.name) ==> r == Panic
    ensures Prepared(obj, ioctxCode, a) && a.initCode < 0 ==> r == Err(CheckError(a.initCode, strerror).error)
    ensures Prepared(obj, ioctxCode, a) && a.initCode > 0 ==> r == Panic
    ensures Submitted(obj, ioctxCode, a) && a.ret < 0 ==> r == Err(CheckError(a.ret, strerror).error)
  {
    var _ :- OpenIoCtx(obj.poolName, ioctxCode, strerror);
    var _ :- Unwrap(NewCompletion(a.completionCode, strerror));
    var _ :- Unwrap(CStringNew(obj.name));
    var _ :- Initiated(a.initCode, strerror);
    GetReturnValue(a.ret, strerror)
  }

  /** `set_xattr(name, value)`: success discards the completion's count. */
  function SetXattr(obj: Object, attr: Text, value: seq<Byte>, ioctxCode: CInt, a: AioReply, strerror: MessageTable): (r: Result<()>)
    ensures r.Ok? <==> Submitted(obj, ioctxCode, a) && NUL !in attr && a.ret >= 0
    ensures NUL in obj.poolName ==> r == Err(NulError(FirstNul(obj.poolName)))
    ensures NUL !in obj.poolName && ioctxCode < 0 ==> r == Err(CheckError(ioctxCode, strerror).error)
    ensures NUL !in obj.poolName && ioctxCode >= 0 && NUL in obj.name ==> r == Err(IoError(FirstNul(obj.name)))
    ensures NUL in attr && NUL !in obj.poolName && ioctxCode >= 0 && NUL !in obj.name ==> r == Err(IoError(FirstNul(attr)))
    ensures NUL !in obj.poolName && ioctxCode >= 0 && NUL !in obj.name && NUL !in attr && a.completionCode < 0 ==>
              r == Err(CheckError(a.completionCode, strerror).error)
    ensures Prepared(obj, ioctxCode, a) && NUL !in attr && a.initCode < 0 ==> r == Err(CheckError(a.initCode, strerror).error)
    ensures Prepared(obj, ioctxCode, a) && NUL !in attr && a.initCode > 0 ==> r == Panic
    ensures Submitted(obj, ioctxCode, a) && NUL !in attr && a.ret < 0 ==> r == Err(CheckError(a.ret, strerror).error)
  {
    var _ :- OpenIoCtx(obj.poolName, ioctxCode, strerror);
    var _ :- CStringIo(obj.name);
    var _ :- CStringIo(attr);
    var _ :- NewCompletion(a.completionCode, strerror);
    var _ :- Initiated(a.initCode, strerror);
    var _ :- GetReturnValue(a.ret, strerror);
    Ok(())
  }

  /** The first capacity `get_xattr` offers. */
  const XATTR_INITIAL_CAPACITY: nat := 64

  /** One round of `get_xattr`: the backend's answers and the buffer memory afterwards. */
  datatype XattrAttempt = XattrAttempt(aio: AioReply, value: nat -> Byte)

  /**
   One round on its own: create a completion, start the read, await it; on
   success the value is the first `size` bytes of the buffer.
   */
  function AttemptOutcome(attempt: XattrAttempt, strerror: MessageTable): (r: Result<seq<Byte>>)
    ensures r.Ok? <==> attempt.aio.completionCode >= 0 && attempt.aio.initCode == 0 && attempt.aio.ret >= 0
    ensures r.Ok? ==> r.value == Filled(attempt.value, attempt.aio.ret)
    ensures attempt.aio.completionCode < 0 ==> r == Err(CheckError(attempt.aio.completionCode, strerror).error)
    ensures attempt.aio.completionCode >= 0 && attempt.aio.initCode > 0 ==> r == Panic
    ensures attempt.aio.completionCode >= 0 && attempt.aio.initCode < 0 ==>
              r == Err(CheckError(attempt.aio.initCode, strerror).error)
    ensures attempt.aio.completionCode >= 0 && attempt.aio.initCode == 0 && attempt.aio.ret < 0 ==>
              r == Err(CheckError(attempt.aio.ret, strerror).error)
  {
    var _ :- NewCompletion(attempt.aio.completionCode, strerror);
    var _ :- Initiated(attempt.aio.initCode, strerror);
    var size :- GetReturnValue(attempt.aio.ret, strerror);
    Ok(Filled(attempt.value, size))
  }

  /**
   The round is repeated: the read was started and the awaited error equals
   `OVERFLOW_ERROR` while the capacity is still below `MAX_BUF_SIZE`.
   */
  function Retried(attempt: XattrAttempt, cap: nat, overflow: Error, maxBufSize: nat, strerror: MessageTable): (retry: bool)
    ensures retry <==> attempt.aio.completionCode >= 0 && attempt.aio.initCode == 0
                       && AttemptOutcome(attempt, strerror).Err?
                       && ErrorEq(AttemptOutcome(attempt, strerror).error, overflow)
                       && cap < maxBufSize
    ensures retry ==> AttemptOutcome(attempt, strerror) == Err(CheckError(attempt.aio.ret, strerror).error)
  {
    && attempt.aio.completionCode >= 0
    && attempt.aio.initCode == 0
    && attempt.aio.ret < 0
    && ErrorEq(CheckError(attempt.aio.ret, strerror).error, overflow)
    && cap < maxBufSize
  }

  /**
   What `get_xattr` does before its loop: open the pool context and convert
   the object and attribute names.
   */
  function XattrSetup(obj: Object, attr: Text, ioctxCode: CInt, strerror: MessageTable): (r: Result<()>)
    ensures r.Ok? <==> NUL !in obj.poolName && ioctxCode >= 0 && NUL !in obj.name && NUL !in attr
    ensures !r.Panic?
    ensures NUL in obj.poolName ==> r == Err(NulError(FirstNul(obj.poolName)))
    ensures NUL !in obj.poolName && ioctxCode < 0 ==> r == Err(CheckError(ioctxCode, strerror).error)
    ensures NUL !in obj.poolName && ioctxCode >= 0 && NUL in obj.name ==> r == Err(IoError(FirstNul(obj.name)))
    ensures NUL !in obj.poolName && ioctxCode >= 0 && NUL !in obj.name && NUL in attr ==> r == Err(IoError(FirstNul(attr)))
  {
    var _ :- OpenIoCtx(obj.poolName, ioctxCode, strerror);
    var _ :- CStringIo(obj.name);
    var _ :- CStringIo(attr);
    Ok(())
  }

  /**
   `get_xattr(name)`: the retry-growth loop. `backend(k, cap)` answers the
   `k`-th round offered `cap` bytes; `overflow` and `maxBufSize` stand for
   `OVERFLOW_ERROR` and `MAX_BUF_SIZE`. `caps` lists the capacities offered.
   */
  method GetXattr(obj: Object, attr: Text, ioctxCode: CInt, backend: (nat, nat) -> XattrAttempt,
                  overflow: Error, maxBufSize: nat, alloc: Allocator, strerror: MessageTable)
    returns (r: Result<seq<Byte>>, caps: seq<nat>)
    requires Reserves(alloc)
    ensures !(NUL !in obj.poolName && ioctxCode >= 0 && NUL !in obj.name && NUL !in attr) ==> caps == [] && r.Err?
    ensures XattrSetup(obj, attr, ioctxCode, strerror).Err? ==> r == Err(XattrSetup(obj, attr, ioctxCode, strerror).error)
    ensures NUL !in obj.poolName && ioctxCode >= 0 && NUL !in obj.name && NUL !in attr ==>
              |caps| >= 1 && caps[0] == XATTR_INITIAL_CAPACITY
    ensures forall i :: 0 <= i < |caps| - 1 ==> Retried(backend(i, caps[i]), caps[i], overflow, maxBufSize, strerror)
    ensures AtLeastDoubles(caps)
    ensures |caps| >= 1 ==>
              var last := |caps| - 1;
              !Retried(backend(last, caps[last]), caps[last], overflow, maxBufSize, strerror)
              && r == AttemptOutcome(backend(last, caps[last]), strerror)
    ensures r.Ok? ==> |caps| >= 1 && |r.value| == backend(|caps| - 1, caps[|caps| - 1]).aio.ret
  {
    caps := [];
    var setup := XattrSetup(obj, attr, ioctxCode, strerror);
    if setup.IsFailure() {
      return setup.PropagateFailure(), caps;
    }
    var cap := XATTR_INITIAL_CAPACITY;
    while true
      invariant |caps| == 0 ==> cap == XATTR_INITIAL_CAPACITY
      invariant |caps| >= 1 ==> caps[0] == XATTR_INITIAL_CAPACITY && cap >= 2 * caps[|caps| - 1]
      invariant cap >= XATTR_INITIAL_CAPACITY
      invariant forall i :: 0 <= i < |caps| ==> Retried(backend(i, caps[i]), caps[i], overflow, maxBufSize, strerror)
      invariant AtLeastDoubles(caps)
      decreases if cap < maxBufSize then maxBufSize - cap + 1 else 0
    {
      var attempt := backend(|caps|, cap);
      AppendKeepsDoubling(caps, cap);
      caps := caps + [cap];
      if Retried(attempt, cap, overflow, maxBufSize, strerror) {
        cap := alloc(cap, 2 * cap);
      } else {
        r := AttemptOutcome(attempt, strerror);
        return;
      }
    }
  }

  /**
   Every retried round was offered less than `MAX_BUF_SIZE`, and the
   offers at least double from 64, so `get_xattr` makes at most
   `2 + log2(MAX_BUF_SIZE / 64)` rounds.
   */
  lemma GetXattrRoundsBounded(caps: seq<nat>, maxBufSize: nat)
    requires |caps| >= 2 && caps[0] == XATTR_INITIAL_CAPACITY && AtLeastDoubles(caps)
    requires forall i :: 0 <= i < |caps| - 1 ==> caps[i] < maxBufSize
    ensures XATTR_INITIAL_CAPACITY * Pow2(|caps| - 2) < maxBufSize
  {
    DoublingGrowth(caps[..|caps| - 1]);
  }

  /** The backend's answers for `get_xattrs`: the call, the iterator handle it produced, the iterator's replies. */
  datatype XattrsReply = XattrsReply(aio: AioReply, handle: Option<nat>, entries: seq<NextReply>)

  /** The result of `get_xattrs` and the number of `rados_getxattrs_end` calls made. */
  datatype Drained = Drained(result: Result<Attrs>, endCalls: nat)

  /**
   `get_xattrs()`: start the listing, await it, drain the iterator. The
   iterator value exists from just before the call, so it is dropped, and the
   handle released, on every path after that point, including errors and the
   unwinding of a failed `assert!`.
   */
  function GetXattrs(obj: Object, ioctxCode: CInt, reply: XattrsReply, strerror: MessageTable): (d: Drained)
    ensures d.endCalls <= 1
    ensures d.endCalls == 1 <==> Prepared(obj, ioctxCode, reply.aio) && reply.handle.Some?
    ensures d.result.Ok? <==>
              Submitted(obj, ioctxCode, reply.aio) && reply.aio.ret >= 0 && XattrsOf(reply.handle, reply.entries, strerror).Ok?
    ensures d.result.Ok? ==> d.result == XattrsOf(reply.handle, reply.entries, strerror)
    ensures NUL in obj.poolName ==> d.result == Err(NulError(FirstNul(obj.poolName)))
    ensures NUL !in obj.poolName && ioctxCode < 0 ==> d.result == Err(CheckError(ioctxCode, strerror).error)
    ensures NUL !in obj.poolName && ioctxCode >= 0 && NUL in obj.name ==> d.result == Err(IoError(FirstNul(obj.name)))
    ensures NUL !in obj.poolName && ioctxCode >= 0 && NUL !in obj.name && reply.aio.completionCode < 0 ==>
              d.result == Err(CheckError(reply.aio.completionCode, strerror).error)
    ensures Prepared(obj, ioctxCode, reply.aio) && reply.aio.initCode < 0 ==>
              d.result == Err(CheckError(reply.aio.initCode, strerror).error)
    ensures Prepared(obj, ioctxCode, reply.aio) && reply.aio.initCode > 0 ==> d.result == Panic
    ensures Submitted(obj, ioctxCode, reply.aio) && reply.aio.ret < 0 ==> d.result == Err(CheckError(reply.aio.ret, strerror).error)
    ensures Submitted(obj, ioctxCode, reply.aio) && reply.aio.ret >= 0 ==> d.result == XattrsOf(reply.handle, reply.entries, strerror)
  {
    var before: Result<()> :=
      var _ :- OpenIoCtx(obj.poolName, ioctxCode, strerror);
      var _ :- CStringIo(obj.name);
      NewCompletion(reply.aio.completionCode, strerror);
    if before.IsFailure() then Drained(before.PropagateFailure(), 0)
    else
      var result: Result<Attrs> :=
        var _ :- Initiated(reply.aio.initCode, strerror);
        var _ :- GetReturnValue(reply.aio.ret, strerror);
        XattrsOf(reply.handle, reply.entries, strerror);
      Drained(result, EndCalls(reply.handle))
  }
}

=== FILE: pools.dfy ===
/**
 Pool-level operations (`Pool` in pool.rs): listing snapshot ids with the
 retry-growth protocol, reading a snapshot's name, and stepping the
 object-listing iterator.
 */
module Pools {

  import opened Wrappers
  import opened Bytes
  import opened Errors
  import opened Utils
  import opened Io
  import opened Vecs
  import opened Objects

  /** A pool handle: the name of the pool. */
  datatype Pool = Pool(name: Text)

  /** A snapshot id (`u64`). */
  type SnapId = x: int | 0 <= x < 0x1_0000_0000_0000_0000

  /** The first capacity `snapshot_list` offers. */
  const SNAP_INITIAL_CAPACITY: nat := 16

  /** `(1 << 31) - 1`: the largest capacity still offered (it must fit a C `int`). */
  const SNAP_MAX_CAPACITY: nat := 0x7FFF_FFFF

  /** The error returned once the capacity has outgrown `SNAP_MAX_CAPACITY`. */
  const TOO_MANY_SNAPSHOTS: Error := OtherError("too many snapshots")

  /** One reply of `rados_ioctx_snap_list`: its status and the id buffer afterwards. */
  datatype SnapListReply = SnapListReply(code: CInt, ids: nat -> SnapId)

  /**
   The status is the range error: classified, it equals `ERROR_RANGE`
   (see `Errors.MatchesErrorRange` for when that happens).
   */
  predicate IsRangeReply(code: CInt, strerror: MessageTable) {
    code == -ERANGE && Utf8Valid(strerror(ERANGE))
  }

  /** `2^27`, unrolled. */
  lemma Pow2Of27()
    ensures Pow2(27) == 134217728
  {
    assert Pow2(4) == 16;
    assert Pow2(8) == 256 by { assert Pow2(6) == 64; }
    assert Pow2(12) == 4096 by { assert Pow2(10) == 1024; }
    assert Pow2(16) == 65536 by { assert Pow2(14) == 16384; }
    assert Pow2(20) == 1048576 by { assert Pow2(18) == 262144; }
    assert Pow2(24) == 16777216 by { assert Pow2(22) == 4194304; }
    assert Pow2(26) == 67108864;
  }

  /** `16 * 2^k` capacities stay within `SNAP_MAX_CAPACITY` for at most 27 values of `k`. */
  lemma SnapCapacityBound(k: nat)
    requires SNAP_INITIAL_CAPACITY * Pow2(k) <= SNAP_MAX_CAPACITY
    ensures k <= 26
  {
    if k > 26 {
      Pow2Monotone(27, k);
      Pow2Of27();
    }
  }

  /** The retry test of `snapshot_list()`: a negative status whose error equals `ERROR_RANGE`. */
  function RetriesSnapList(code: CInt, strerror: MessageTable): (retry: bool)
    ensures retry <==> IsRangeReply(code, strerror)
  {
    if code < 0 then
      MatchesErrorRange(code, strerror);
      ErrorEq(CheckError(code, strerror).error, ErrorRange(strerror))
    else false
  }

  /**
   What `snapshot_list()` returns when the given reply is the last one: the
   ids it reports, the classified error, or, for a range error that is no
   longer retried, `TOO_MANY_SNAPSHOTS`.
   */
  function SnapOutcome(reply: SnapListReply, strerror: MessageTable): (r: Result<seq<SnapId>>)
    ensures !r.Panic?
    ensures r.Ok? <==> reply.code >= 0
    ensures r.Ok? ==> r.value == Filled(reply.ids, reply.code)
    ensures IsRangeReply(reply.code, strerror) ==> r == Err(TOO_MANY_SNAPSHOTS)
    ensures reply.code < 0 && !IsRangeReply(reply.code, strerror) ==> r == Err(CheckError(reply.code, strerror).error)
  {
    if reply.code >= 0 then Ok(Filled(reply.ids, reply.code))
    else if IsRangeReply(reply.code, strerror) then Err(TOO_MANY_SNAPSHOTS)
    else Err(CheckError(reply.code, strerror).error)
  }

  /**
   `snapshot_list()`: offer 16 slots, and while the backend answers with the
   range error grow the capacity to at least double; give up once it exceeds
   `2^31 - 1`. `backend(k, cap)` answers the `k`-th call offered `cap`
   slots; `caps` lists the capacities offered.
   */
  method SnapshotList(pool: Pool, ioctxCode: CInt, backend: (nat, nat) -> SnapListReply, alloc: Allocator, strerror: MessageTable)
    returns (r: Result<seq<SnapId>>, caps: seq<nat>)
    requires Reserves(alloc)
    ensures !OpenIoCtx(pool.name, ioctxCode, strerror).Ok? ==>
              caps == [] && r == Err(OpenIoCtx(pool.name, ioctxCode, strerror).error)
    ensures OpenIoCtx(pool.name, ioctxCode, strerror).Ok? ==>
              |caps| >= 1 && caps[0] == SNAP_INITIAL_CAPACITY
    ensures forall i :: 0 <= i < |caps| ==> caps[i] <= SNAP_MAX_CAPACITY
    ensures AtLeastDoubles(caps)
    ensures forall i :: 0 <= i < |caps| - 1 ==> IsRangeReply(backend(i, caps[i]).code, strerror)
    ensures |caps| >= 1 ==> r == SnapOutcome(backend(|caps| - 1, caps[|caps| - 1]), strerror)
    ensures |caps| >= 1 && IsRangeReply(backend(|caps| - 1, caps[|caps| - 1]).code, strerror) ==>
              alloc(caps[|caps| - 1], 2 * caps[|caps| - 1]) > SNAP_MAX_CAPACITY
  {
    caps := [];
    var ctx := OpenIoCtx(pool.name, ioctxCode, strerror);
    if ctx.IsFailure() {
      return Err(ctx.error), caps;
    }
    var cap := SNAP_INITIAL_CAPACITY;
    while cap <= SNAP_MAX_CAPACITY
      invariant |caps| == 0 ==> cap == SNAP_INITIAL_CAPACITY
      invariant |caps| >= 1 ==> caps[0] == SNAP_INITIAL_CAPACITY && cap == alloc(caps[|caps| - 1], 2 * caps[|caps| - 1])
      invariant cap >= SNAP_INITIAL_CAPACITY
      invariant forall i :: 0 <= i < |caps| ==> caps[i] <= SNAP_MAX_CAPACITY
      invariant forall i :: 0 <= i < |caps| ==> IsRangeReply(backend(i, caps[i]).code, strerror)
      invariant AtLeastDoubles(caps)
      decreases SNAP_MAX_CAPACITY + 1 - cap
    {
      var reply := backend(|caps|, cap);
      AppendKeepsDoubling(caps, cap);
      caps := caps + [cap];
      if RetriesSnapList(reply.code, strerror) {
        cap := alloc(cap, 2 * cap);
      } else {
        r := SnapOutcome(reply, strerror);
        return;
      }
    }
    r := Err(TOO_MANY_SNAPSHOTS);
  }

  /**
   At most 27 calls: the offers at least double from 16 and never exceed
   `2^31 - 1`.
   */
  lemma SnapshotListCallsBounded(caps: seq<nat>)
    requires |caps| >= 1 && caps[0] == SNAP_INITIAL_CAPACITY && AtLeastDoubles(caps)
    requires forall i :: 0 <= i < |caps| ==> caps[i] <= SNAP_MAX_CAPACITY
    ensures |caps| <= 27
  {
    DoublingGrowth(caps);
    SnapCapacityBound(|caps| - 1);
  }

  /** The size of the buffer `snapshot_get_name` offers. */
  const SNAP_NAME_CAPACITY: nat := 256

  /**
   The bytes of the 256-byte name buffer before its first NUL, or all of
   them when there is none.
   */
  function SnapNameBytes(buffer: nat -> Byte): (name: seq<Byte>)
    ensures |name| <= SNAP_NAME_CAPACITY
    ensures NUL !in name
    ensures name == Filled(buffer, |name|)
    ensures |name| < SNAP_NAME_CAPACITY ==> buffer(|name|) == NUL
  {
    var all := Filled(buffer, SNAP_NAME_CAPACITY);
    all[..FirstNul(all)]
  }

  /** `String::from_utf8_lossy`; the substitution it performs is not part of this model. */
  type Lossy = seq<Byte> -> Text

  /** One reply of `rados_ioctx_snap_get_name`: its status and the buffer afterwards. */
  datatype SnapNameReply = SnapNameReply(code: CInt, buffer: nat -> Byte)

  /** `snapshot_get_name(id)`: the name up to its NUL, lossily decoded, or the classified error. */
  function SnapshotGetName(pool: Pool, snapId: SnapId, ioctxCode: CInt, reply: SnapNameReply,
                           lossy: Lossy, strerror: MessageTable): (r: Result<Text>)
    ensures !r.Panic?
    ensures r.Ok? <==> NUL !in pool.name && ioctxCode >= 0 && reply.code >= 0
    ensures r.Ok? ==> r.value == lossy(SnapNameBytes(reply.buffer))
    ensures NUL in pool.name ==> r == Err(NulError(FirstNul(pool.name)))
    ensures NUL !in pool.name && ioctxCode < 0 ==> r == Err(CheckError(ioctxCode, strerror).error)
    ensures NUL !in pool.name && ioctxCode >= 0 && reply.code < 0 ==> r == Err(CheckError(reply.code, strerror).error)
  {
    var _ :- OpenIoCtx(pool.name, ioctxCode, strerror);
    var _ :- CheckError(reply.code, strerror);
    Ok(lossy(SnapNameBytes(reply.buffer)))
  }

  /**
   One reply of `rados_nobjects_list_next2`: its status and the entry's
   pointer and size (the key and namespace it also returns are converted and
   discarded by the source, and are not modelled).
   */
  datatype ListReply = ListReply(code: CInt, entry: Option<seq<Byte>>, entrySize: nat)

  /** The entry pointer, when not null, has `entrySize` readable bytes. */
  predicate Readable(reply: ListReply) {
    reply.entry.Some? ==> reply.entrySize <= |reply.entry.value|
  }

  /** A reply whose entry, when there is one, can be read. */
  type ReadableReply = reply: ListReply | Readable(reply) witness ListReply(0, None, 0)

  /**
   `ListObjectResultIter::next`: on success an object of this pool named by
   the entry; on any error, the end of the sequence.
   */
  function Next(pool: Pool, reply: ReadableReply, strerror: MessageTable): (o: Option<Object>)
    ensures o.Some? <==> reply.code >= 0
    ensures o.Some? ==> o.value.poolName == pool.name
    ensures o.Some? ==> o.value.name == CCharPtrToString(reply.entry, reply.entrySize)
  {
    if CheckError(reply.code, strerror).Ok? then
      Some(Object(pool.name, CCharPtrToString(reply.entry, reply.entrySize)))
    else None
  }

  /** An entry whose name is not UTF-8 is still yielded, as an object with an empty name. */
  lemma NonUtf8EntryYieldsEmptyName(pool: Pool, reply: ReadableReply, strerror: MessageTable)
    requires reply.code >= 0 && reply.entry.Some?
    requires !Utf8Valid(reply.entry.value[..reply.entrySize])
    ensures Next(pool, reply, strerror) == Some(Object(pool.name, []))
  {
  }

  /** An entry whose name is ASCII is yielded under exactly that name. */
  lemma AsciiEntryNameIsKept(pool: Pool, reply: ReadableReply, strerror: MessageTable)
    requires reply.code >= 0 && reply.entry.Some? && IsAscii(reply.entry.value[..reply.entrySize])
    ensures Next(pool, reply, strerror) == Some(Object(pool.name, reply.entry.value[..reply.entrySize]))
  {
    AsciiIsUtf8(reply.entry.value[..reply.entrySize]);
  }

  /** The listing cursor answers `replies` and then `-ENOENT`, the end of the listing. */
  function ListReplyAt(replies: seq<ReadableReply>, k: nat): ReadableReply {
    if k < |replies| then replies[k] else ListReply(-2, None, 0)
  }

  /**
   What a consumer that asks for at most `wanted` objects receives: the
   objects yielded before the first `None`.
   */
  function Take(pool: Pool, replies: seq<ReadableReply>, k: nat, wanted: nat, strerror: MessageTable): (objs: seq<Object>)
    ensures |objs| <= wanted
    ensures forall i :: 0 <= i < |objs| ==> Next(pool, ListReplyAt(replies, k + i), strerror) == Some(objs[i])
    ensures |objs| < wanted ==> ListReplyAt(replies, k + |objs|).code < 0
    decreases wanted
  {
    if wanted == 0 then []
    else
      match Next(pool, ListReplyAt(replies, k), strerror)
      case None => []
      case Some(o) => [o] + Take(pool, replies, k + 1, wanted - 1, strerror)
  }

  /**
   Listing stops exactly at the first error: if the first `n` replies succeed
   and the next one fails, a consumer that wants more gets exactly `n` objects.
   */
  lemma {:induction false} TakeStopsAtFirstError(pool: Pool, replies: seq<ReadableReply>, k: nat, n: nat, wanted: nat, strerror: MessageTable)
    requires forall i :: k <= i < k + n ==> ListReplyAt(replies, i).code >= 0
    requires ListReplyAt(replies, k + n).code < 0
    requires n < wanted
    ensures |Take(pool, replies, k, wanted, strerror)| == n
    decreases n
  {
    if n > 0 {
      TakeStopsAtFirstError(pool, replies, k + 1, n - 1, wanted - 1, strerror);
    }
  }

  /** A call the iterator makes into librados: `rados_nobjects_list_next2` at a position, or `rados_nobjects_list_close`. */
  datatype ListCall = ListNextCall(position: nat) | ListCloseCall

  /**
   `ListObjectResultIter` over its lifetime: the cursor's position, whether
   it has been dropped, and the calls it has made so far.
   */
  datatype ListIter = ListIter(position: nat, dropped: bool, calls: seq<ListCall>)

  /** How many of `calls` close the listing. */
  function CloseCount(calls: seq<ListCall>): nat
    decreases |calls|
  {
    if |calls| == 0 then 0
    else CloseCount(calls[..|calls| - 1]) + (if calls[|calls| - 1].ListCloseCall? then 1 else 0)
  }

  /** Calls that are all `next()` close nothing. */
  lemma {:induction false} NextCallsCloseNothing(calls: seq<ListCall>)
    requires forall i :: 0 <= i < |calls| ==> calls[i].ListNextCall?
    ensures CloseCount(calls) == 0
    decreases |calls|
  {
    if |calls| > 0 {
      var front := calls[..|calls| - 1];
      assert forall i :: 0 <= i < |front| ==> front[i] == calls[i];
      NextCallsCloseNothing(front);
    }
  }

  /**
   The calls an iterator has made: one `next` per position passed, in order,
   and, once dropped, a single close after all of them.
   */
  predicate Lifecycle(it: ListIter) {
    |it.calls| == it.position + (if it.dropped then 1 else 0)
    && (forall i :: 0 <= i < it.position ==> it.calls[i] == ListNextCall(i))
    && (it.dropped ==> it.calls[it.position] == ListCloseCall)
  }

  /** A freshly opened listing. */
  const Opened: ListIter := ListIter(0, false, [])

  /**
   `next()` on a live iterator (ownership rules out calling it after the
   drop): one `rados_nobjects_list_next2` at the current position.
   */
  function IterNext(pool: Pool, replies: seq<ReadableReply>, it: ListIter, strerror: MessageTable): (res: (ListIter, Option<Object>))
    requires !it.dropped && Lifecycle(it)
    ensures Lifecycle(res.0) && !res.0.dropped
    ensures res.0.position == it.position + 1
    ensures res.0.calls[..|it.calls|] == it.calls
    ensures res.1 == Next(pool, ListReplyAt(replies, it.position), strerror)
  {
    (ListIter(it.position + 1, false, it.calls + [ListNextCall(it.position)]),
     Next(pool, ListReplyAt(replies, it.position), strerror))
  }

  /** `Drop for ListObjectResultIter`: one `rados_nobjects_list_close`. */
  function IterDrop(it: ListIter): (after: ListIter)
    requires !it.dropped && Lifecycle(it)
    ensures Lifecycle(after) && after.dropped
    ensures after.position == it.position
    ensures after.calls[..|it.calls|] == it.calls
  {
    ListIter(it.position, true, it.calls + [ListCloseCall])
  }

  /** A dropped iterator has closed the listing exactly once, as its last call. */
  lemma DroppedClosesOnce(it: ListIter)
    requires Lifecycle(it) && it.dropped
    ensures CloseCount(it.calls) == 1
    ensures it.calls[|it.calls| - 1] == ListCloseCall
    ensures forall i :: 0 <= i < |it.calls| - 1 ==> it.calls[i].ListNextCall?
  {
    NextCallsCloseNothing(it.calls[..it.position]);
  }

  /** A live iterator has not closed the listing. */
  lemma LiveNeverClosed(it: ListIter)
    requires Lifecycle(it) && !it.dropped
    ensures CloseCount(it.calls) == 0
  {
    NextCallsCloseNothing(it.calls);
  }

  /** `n` calls to `next()` on a live iterator, then its state. */
  function AfterNexts(pool: Pool, replies: seq<ReadableReply>, it: ListIter, n: nat, strerror: MessageTable): (after: ListIter)
    requires !it.dropped && Lifecycle(it)
    ensures Lifecycle(after) && !after.dropped
    ensures after.position == it.position + n
    decreases n
  {
    if n == 0 then it
    else AfterNexts(pool, replies, IterNext(pool, replies, it, strerror).0, n - 1, strerror)
  }

  /**
   Whatever number of `next()` calls precede the drop, zero included, the
   listing is closed exactly once and no `next()` follows the close.
   */
  lemma NextsThenDropCloseOnce(pool: Pool, replies: seq<ReadableReply>, n: nat, strerror: MessageTable)
    ensures var it := IterDrop(AfterNexts(pool, replies, Opened, n, strerror));
            |it.calls| == n + 1 && CloseCount(it.calls) == 1 && it.calls[n] == ListCloseCall &&
            forall i :: 0 <= i < n ==> it.calls[i] == ListNextCall(i)
  {
    DroppedClosesOnce(IterDrop(AfterNexts(pool, replies, Opened, n, strerror)));
  }

  /**
   A consumer that takes at most `wanted` objects, as `Iterator::take` does:
   it stops without calling `next()` once it has enough, and after the
   first `None`.
   */
  function Consume(pool: Pool, replies: seq<ReadableReply>, it: ListIter, wanted: nat, strerror: MessageTable)
    : (res: (ListIter, seq<Object>))
    requires !it.dropped && Lifecycle(it)
    ensures Lifecycle(res.0) && !res.0.dropped
    ensures res.1 == Take(pool, replies, it.position, wanted, strerror)
    ensures res.0.position == it.position + |res.1| + (if |res.1| < wanted then 1 else 0)
    decreases wanted
  {
    if wanted == 0 then (it, [])
    else
      var (next, item) := IterNext(pool, replies, it, strerror);
      match item
      case None => (next, [])
      case Some(o) =>
        var (last, rest) := Consume(pool, replies, next, wanted - 1, strerror);
        (last, [o] + rest)
  }

  /** Consuming part of the listing, then dropping the iterator. */
  datatype Listing = Listing(objects: seq<Object>, iter: ListIter)

  /**
   Open the listing, take at most `wanted` objects, then drop the iterator:
   the consumer gets the objects yielded before the first `None`, and
   `rados_nobjects_list_close` runs exactly once, after every `next()`.
   */
  function ConsumeAndDrop(pool: Pool, replies: seq<ReadableReply>, wanted: nat, strerror: MessageTable): (l: Listing)
    ensures l.objects == Take(pool, replies, 0, wanted, strerror)
    ensures l.iter.dropped && CloseCount(l.iter.calls) == 1
    ensures |l.iter.calls| == |l.objects| + (if |l.objects| < wanted then 1 else 0) + 1
    ensures l.iter.calls[|l.iter.calls| - 1] == ListCloseCall
    ensures forall i :: 0 <= i < |l.iter.calls| - 1 ==> l.iter.calls[i] == ListNextCall(i)
  {
    var (it, objects) := Consume(pool, replies, Opened, wanted, strerror);
    var dropped := IterDrop(it);
    DroppedClosesOnce(dropped);
    Listing(objects, dropped)
  }
}

=== FILE: utils.dfy ===
/** C string helpers: `c_char_ptr_to_string` and the NUL check of `CString::new`. */
module Utils {

  import opened Wrappers
  import opened Bytes
  import opened Errors

  /**
   `c_char_ptr_to_string(ptr, len)`: the `len` bytes at `ptr` as a string, or
   the empty string for a null pointer, a zero length or bytes that are not
   UTF-8. `ptr` is `None` for null and otherwise the memory it points to; the
   caller must make `len` bytes readable there.
   */
  function CCharPtrToString(ptr: Option<seq<Byte>>, len: nat): (s: Text)
    requires ptr.Some? ==> len <= |ptr.value|
    ensures |s| <= len
    ensures Utf8Valid(s)
    ensures ptr.None? || len == 0 ==> s == []
    ensures ptr.Some? && Utf8Valid(ptr.value[..len]) ==> s == ptr.value[..len]
    ensures ptr.Some? && !Utf8Valid(ptr.value[..len]) ==> s == []
  {
    if ptr.None? || len == 0 then []
    else
      var slice := ptr.value[..len];
      if Utf8Valid(slice) then slice else []
  }

  /** Reading back the bytes of a string from a pointer to them gives the string. */
  lemma CCharPtrToStringRoundTrip(t: Text, rest: seq<Byte>)
    requires Utf8Valid(t)
    ensures CCharPtrToString(Some(t + rest), |t|) == t
  {
    assert (t + rest)[..|t|] == t;
  }

  /** A result is either empty or exactly the bytes read. */
  lemma CCharPtrToStringIsAllOrNothing(ptr: Option<seq<Byte>>, len: nat)
    requires ptr.Some? ==> len <= |ptr.value|
    ensures var s := CCharPtrToString(ptr, len);
            s == [] || (ptr.Some? && s == ptr.value[..len] && |s| == len)
  {
  }

  /**
   `CString::new`: a string without NUL converts unchanged; otherwise the
   error reports the position of the first NUL.
   */
  function CStringNew(s: Text): (r: Result<Text>)
    ensures r.Ok? <==> NUL !in s
    ensures r.Ok? ==> r.value == s
    ensures r.Err? ==> r.error.NulError? && r.error.position < |s| && s[r.error.position] == NUL
    ensures r.Err? ==> forall j :: 0 <= j < r.error.position ==> s[j] != NUL
    ensures !r.Panic?
  {
    var i := FirstNul(s);
    if i < |s| then Err(NulError(i)) else Ok(s)
  }

  /**
   `CString::new(s).map_err(|e| io::Error::new(Other, e))?`, as used for
   object and attribute names: the NUL error arrives wrapped in an `IoError`.
   */
  function CStringIo(s: Text): (r: Result<Text>)
    ensures r.Ok? <==> NUL !in s
    ensures r.Ok? ==> r.value == s
    ensures r.Err? ==> r.error == IoError(CStringNew(s).error.position)
    ensures !r.Panic?
  {
    match CStringNew(s)
    case Err(NulError(p)) => Err(IoError(p))
    case other => other
  }

  /** `.unwrap()`: any error becomes a panic. */
  function Unwrap<T>(r: Result<T>): (u: Result<T>)
    ensures u.Ok? <==> r.Ok?
    ensures u.Ok? ==> u.value == r.value
    ensures !u.Err?
  {
    if r.Ok? then r else Panic
  }
}

=== FILE: vecs.dfy ===
/**
 What the source relies on about `Vec<T>` buffers handed to the backend:
 the capacity `reserve` leaves behind, and what `set_len` exposes.
 */
module Vecs {

  /**
   `Vec::reserve(additional)` on a vector of length 0 and capacity `cap`:
   the allocator chooses the new capacity.
   */
  type Allocator = (nat, nat) -> nat

  /**
   The guarantee `reserve` documents: the capacity never shrinks and becomes
   at least `len + additional`, where `len` is 0 at every call site modelled here.
   */
  ghost predicate Reserves(alloc: Allocator) {
    forall cap: nat, additional: nat :: alloc(cap, additional) >= cap && alloc(cap, additional) >= additional
  }

  /**
   The first `n` elements of a buffer whose contents after the backend call
   are `mem` (what `set_len(n)` makes visible).
   */
  function Filled<T>(mem: nat -> T, n: nat): (s: seq<T>)
    ensures |s| == n
    ensures forall i :: 0 <= i < n ==> s[i] == mem(i)
  {
    seq(n, i requires 0 <= i => mem(i))
  }

  /** Each capacity in the list is at least twice the one before it. */
  ghost predicate AtLeastDoubles(caps: seq<nat>) {
    forall i, j :: 0 <= i < j < |caps| && j == i + 1 ==> caps[j] >= 2 * caps[i]
  }

  function Pow2(k: nat): (p: nat)
    ensures p >= 1
  {
    if k == 0 then 1 else 2 * Pow2(k - 1)
  }

  lemma {:induction false} Pow2Monotone(j: nat, k: nat)
    requires j <= k
    ensures Pow2(j) <= Pow2(k)
    decreases k - j
  {
    if j < k {
      Pow2Monotone(j, k - 1);
    }
  }

  /** Capacities that at least double grow geometrically from the first one. */
  lemma {:induction false} DoublingGrowth(caps: seq<nat>)
    requires |caps| >= 1 && AtLeastDoubles(caps)
    ensures caps[|caps| - 1] >= caps[0] * Pow2(|caps| - 1)
    decreases |caps|
  {
    var n := |caps|;
    if n > 1 {
      var prefix := caps[..n - 1];
      assert AtLeastDoubles(prefix) by {
        forall i, j | 0 <= i < j < |prefix| && j == i + 1
          ensures prefix[j] >= 2 * prefix[i]
        {
          assert prefix[i] == caps[i] && prefix[j] == caps[j];
        }
      }
      DoublingGrowth(prefix);
      assert caps[n - 2] >= caps[0] * Pow2(n - 2);
      assert caps[n - 1] >= 2 * caps[n - 2];
      assert caps[0] * Pow2(n - 1) == 2 * (caps[0] * Pow2(n - 2));
    }
  }

  /** Appending an offer at least twice the last keeps the offers doubling. */
  lemma AppendKeepsDoubling(caps: seq<nat>, cap: nat)
    requires AtLeastDoubles(caps)
    requires |caps| >= 1 ==> cap >= 2 * caps[|caps| - 1]
    ensures AtLeastDoubles(caps + [cap])
  {
  }
}

=== FILE: waker.dfy ===
/**
 The waker slot of `AioCompletion`: a single shared `AtomicPtr<Waker>` that
 the polling task fills (`set_waker`), the backend's completion callback
 empties (`aio_callback`) and `Drop` clears. Every access is one atomic
 `swap`, modelled as one step. Each `Box<Waker>` that `set_waker` allocates
 gets a fresh identity (its installation number), and the history records
 which boxes were woken and which were freed.
 */
module Waker {

  import opened Wrappers
  import opened Errors
  import opened Io

  /** The installation number of a boxed waker. */
  type WakerId = nat

  /**
   The slot, the number of boxes installed so far, and the multisets of
   wake-ups and frees performed on each box.
   */
  datatype Cell = Cell(slot: Option<WakerId>, installed: nat, woken: multiset<WakerId>, freed: multiset<WakerId>)

  /** A new completion's slot holds a null pointer. */
  const Fresh: Cell := Cell(None, 0, multiset{}, multiset{})

  /** `AtomicPtr::swap`: store `v`, hand back the previous occupant. */
  function Swap(c: Cell, v: Option<WakerId>): (Option<WakerId>, Cell) {
    (c.slot, c.(slot := v))
  }

  /**
   `set_waker`: box and install a new waker; a waker it displaces is woken
   and then freed.
   */
  function SetWaker(c: Cell): (c': Cell)
    ensures c'.slot == Some(c.installed) && c'.installed == c.installed + 1
    ensures c.slot.None? ==> c'.woken == c.woken && c'.freed == c.freed
    ensures c.slot.Some? ==>
              c'.woken == c.woken + multiset{c.slot.value} && c'.freed == c.freed + multiset{c.slot.value}
  {
    var w := c.installed;
    var (previous, c1) := Swap(c.(installed := w + 1), Some(w));
    match previous
    case None => c1
    case Some(p) => c1.(woken := c1.woken + multiset{p}, freed := c1.freed + multiset{p})
  }

  /**
   `aio_callback`: take whatever is installed and wake it (the box is freed
   afterwards); with an empty slot nothing happens.
   */
  function Callback(c: Cell): (c': Cell)
    ensures c'.slot.None? && c'.installed == c.installed
    ensures c.slot.None? ==> c' == c
    ensures c.slot.Some? ==>
              c'.woken == c.woken + multiset{c.slot.value} && c'.freed == c.freed + multiset{c.slot.value}
  {
    var (previous, c1) := Swap(c, None);
    match previous
    case None => c1
    case Some(p) => c1.(woken := c1.woken + multiset{p}, freed := c1.freed + multiset{p})
  }

  /** `Drop for AioCompletion`: clear the slot and free a remaining waker without waking it. */
  function Release(c: Cell): (c': Cell)
    ensures c'.slot.None? && c'.installed == c.installed
    ensures c'.woken == c.woken
    ensures c.slot.None? ==> c'.freed == c.freed
    ensures c.slot.Some? ==> c'.freed == c.freed + multiset{c.slot.value}
  {
    var (previous, c1) := Swap(c, None);
    match previous
    case None => c1
    case Some(p) => c1.(freed := c1.freed + multiset{p})
  }

  datatype Event = Install | Fire | Drop

  function Step(c: Cell, e: Event): Cell {
    match e
    case Install => SetWaker(c)
    case Fire => Callback(c)
    case Drop => Release(c)
  }

  /** The cell after the events `es`, in order. */
  function Run(c: Cell, es: seq<Event>): Cell
    decreases |es|
  {
    if |es| == 0 then c else Run(Step(c, es[0]), es[1..])
  }

  /**
   Exactly-once ownership: every box installed so far is either still in the
   slot or has been freed, never both and never twice, and it was woken at
   most as often as it was freed.
   */
  ghost predicate Owned(c: Cell) {
    && (c.slot.Some? ==> c.slot.value < c.installed)
    && (forall w :: w in c.freed ==> w < c.installed)
    && (forall w: nat :: w < c.installed ==> c.freed[w] + (if c.slot == Some(w) then 1 else 0) == 1)
    && (forall w :: c.woken[w] <= c.freed[w])
  }

  /** Each of the three swaps preserves ownership. */
  lemma StepKeepsOwnership(c: Cell, e: Event)
    requires Owned(c)
    ensures Owned(Step(c, e))
  {
  }

  /** Ownership holds after any interleaving of installs, callbacks and drops. */
  lemma {:induction false} RunKeepsOwnership(c: Cell, es: seq<Event>)
    requires Owned(c)
    ensures Owned(Run(c, es))
    decreases |es|
  {
    if |es| > 0 {
      StepKeepsOwnership(c, es[0]);
      RunKeepsOwnership(Step(c, es[0]), es[1..]);
    }
  }

  lemma {:induction false} RunAppend(c: Cell, a: seq<Event>, b: seq<Event>)
    ensures Run(c, a + b) == Run(Run(c, a), b)
    decreases |a|
  {
    if |a| > 0 {
      assert (a + b)[1..] == a[1..] + b;
      RunAppend(Step(c, a[0]), a[1..], b);
    } else {
      assert a + b == b;
    }
  }

  /** Callbacks that find the slot empty change nothing. */
  lemma {:induction false} LateCallbacksDoNothing(c: Cell, n: nat)
    requires c.slot.None?
    ensures Run(c, seq(n, _ => Fire)) == c
    decreases n
  {
    if n > 0 {
      assert seq(n, _ => Fire)[1..] == seq(n - 1, _ => Fire);
      LateCallbacksDoNothing(c, n - 1);
    }
  }

  /** In any interleaving no boxed waker is woken twice or freed twice. */
  lemma WokenAndFreedAtMostOnce(es: seq<Event>)
    ensures forall w :: Run(Fresh, es).woken[w] <= 1 && Run(Fresh, es).freed[w] <= 1
  {
    RunKeepsOwnership(Fresh, es);
    var c := Run(Fresh, es);
    forall w ensures c.woken[w] <= 1 && c.freed[w] <= 1 {
      if w in c.freed {
        assert c.freed[w] + (if c.slot == Some(w) then 1 else 0) == 1;
      }
    }
  }

  /**
   Once the completion is dropped (and whatever callbacks still arrive have
   run), every waker ever installed has left the slot through exactly one
   swap: it was freed exactly once and woken at most once.
   */
  lemma EveryWakerFreedExactlyOnce(es: seq<Event>, lateCallbacks: nat)
    ensures var c := Run(Fresh, es + [Drop] + seq(lateCallbacks, _ => Fire));
            c.slot.None? &&
            forall w: nat :: w < c.installed ==> c.freed[w] == 1 && c.woken[w] <= 1
  {
    var dropped := Run(Fresh, es + [Drop]);
    RunAppend(Fresh, es, [Drop]);
    RunAppend(Fresh, es + [Drop], seq(lateCallbacks, _ => Fire));
    assert dropped.slot.None?;
    LateCallbacksDoNothing(dropped, lateCallbacks);
    RunKeepsOwnership(Fresh, es + [Drop]);
    forall w: nat | w < dropped.installed ensures dropped.freed[w] == 1 && dropped.woken[w] <= 1 {
      assert dropped.freed[w] + (if dropped.slot == Some(w) then 1 else 0) == 1;
    }
  }

  datatype PollState = Ready(result: Result<nat>) | Pending

  /**
   `Future::poll`: a completed operation is ready with its return value and
   leaves the slot alone; otherwise the task's waker is installed and the
   future is pending.
   */
  function Poll(c: Cell, complete: bool, ret: CInt, strerror: MessageTable): (out: (PollState, Cell))
    ensures out.0.Ready? <==> complete
    ensures complete ==> out.0.result == GetReturnValue(ret, strerror) && out.1 == c
    ensures !complete ==> out.1.slot == Some(c.installed) && out.1.installed == c.installed + 1
    ensures !complete && c.slot.None? ==> out.1.woken == c.woken && out.1.freed == c.freed
    ensures !complete && c.slot.Some? ==>
              out.1.woken == c.woken + multiset{c.slot.value} && out.1.freed == c.freed + multiset{c.slot.value}
    ensures Owned(c) ==> Owned(out.1)
  {
    if complete then (Ready(GetReturnValue(ret, strerror)), c)
    else (Pending, SetWaker(c))
  }

  /*
   The race between one `poll` and the backend. The task's poll is split at
   its two shared accesses: the completion check and the installing swap.
   The backend first marks the operation complete, then runs the callback
   once. Any interleaving of the two is allowed.
   */

  datatype Pc = Start | Checked | Installed | Returned(ready: bool)

  datatype Sys = Sys(complete: bool, fired: bool, cell: Cell, pc: Pc)

  const Initial: Sys := Sys(false, false, Fresh, Start)

  datatype Actor = Task | Backend

  function BackendStep(s: Sys): Sys {
    if !s.complete then s.(complete := true)
    else if !s.fired then s.(fired := true, cell := Callback(s.cell))
    else s
  }

  /** `poll` as written: check completion, then install the waker and return pending. */
  function PollStepAsWritten(s: Sys): Sys {
    match s.pc
    case Start => if s.complete then s.(pc := Returned(true)) else s.(pc := Checked)
    case Checked => s.(cell := SetWaker(s.cell), pc := Returned(false))
    case _ => s
  }

  /** `poll` with a second completion check after the waker is installed. */
  function PollStepRechecked(s: Sys): Sys {
    match s.pc
    case Start => if s.complete then s.(pc := Returned(true)) else s.(pc := Checked)
    case Checked => s.(cell := SetWaker(s.cell), pc := Installed)
    case Installed => s.(pc := Returned(s.complete))
    case Returned(_) => s
  }

  function Interleave(s: Sys, schedule: seq<Actor>, rechecked: bool): Sys
    decreases |schedule|
  {
    if |schedule| == 0 then s
    else
      var s' := match schedule[0]
        case Backend => BackendStep(s)
        case Task => if rechecked then PollStepRechecked(s) else PollStepAsWritten(s);
      Interleave(s', schedule[1..], rechecked)
  }

  /**
   The callback has run, the poll returned pending, and the task's waker
   (the first one installed) was never woken: nothing will poll again.
   */
  ghost predicate WakeupLost(s: Sys) {
    s.fired && s.pc == Returned(false) && 0 !in s.cell.woken
  }

  /**
   As written, the callback can fire between the completion check and the
   install: it finds the slot empty, and the waker installed afterwards is
   never woken.
   */
  lemma PollLosesWakeupAsWritten()
    ensures WakeupLost(Interleave(Initial, [Task, Backend, Backend, Task], false))
  {
  }

  ghost predicate RecheckedInv(s: Sys) {
    && (s.fired ==> s.complete)
    && (0 in s.cell.woken ==> s.fired)
    && (s.pc == Start || s.pc == Checked ==> s.cell.slot.None? && s.cell.installed == 0)
    && (s.pc == Installed ==> s.cell.installed == 1 && (s.cell.slot == Some(0) || 0 in s.cell.woken))
    && (s.pc == Returned(false) ==>
          s.cell.installed == 1 && ((s.cell.slot == Some(0) && !s.fired) || 0 in s.cell.woken))
  }

  lemma {:induction false} RecheckedInvHolds(s: Sys, schedule: seq<Actor>)
    requires RecheckedInv(s)
    ensures RecheckedInv(Interleave(s, schedule, true))
    decreases |schedule|
  {
    if |schedule| > 0 {
      var s' := match schedule[0]
        case Backend => BackendStep(s)
        case Task => PollStepRechecked(s);
      assert RecheckedInv(s');
      RecheckedInvHolds(s', schedule[1..]);
    }
  }

  /**
   With the re-check, no interleaving loses the wake-up: if the poll
   returned pending and the callback has run, the task's waker was woken.
   */
  lemma RecheckedPollNeverLosesWakeup(schedule: seq<Actor>)
    ensures !WakeupLost(Interleave(Initial, schedule, true))
  {
    RecheckedInvHolds(Initial, schedule);
  }
}

=== FILE: wrappers.dfy ===
/** The optional value used wherever the source has a nullable pointer or an `Option`. */
module Wrappers {

  datatype Option<+T> = None | Some(value: T)
}

=== FILE: xattr.dfy ===
/**
 Draining the backend's extended-attribute iterator into a map
 (`Xattrs::from_iter`) and releasing the iterator (`Drop for RadosXattrsIter`).
 */
module Xattr {

  import opened Wrappers
  import opened Bytes
  import opened Errors
  import opened Vecs

  /**
   One reply of `rados_getxattrs_next`: its status, the attribute name (the
   bytes before the name's NUL), the memory at the data pointer and the
   reported length.
   */
  datatype NextReply = NextReply(code: CInt, name: Text, data: nat -> Byte, len: nat)

  /** Past its last attribute the iterator reports success with length 0. */
  function EndReply(): NextReply {
    NextReply(0, [], _ => 0, 0)
  }

  /** The reply to the `k`-th call, for an iterator that answers `replies` and then ends. */
  function ReplyAt(replies: seq<NextReply>, k: nat): NextReply {
    if k < |replies| then replies[k] else EndReply()
  }

  /** The attribute map: name to value bytes. */
  type Attrs = map<Text, seq<Byte>>

  /** What one turn of the drain loop does with a reply. */
  datatype Turn = Stop | Fail(error: Error) | Abort | Entry(name: Text, value: seq<Byte>)

  /**
   One turn: a positive status fails the `assert!`, a negative one is the
   classified error, length 0 ends the loop, a name that is not UTF-8 is a
   `Utf8Error`, and otherwise the entry holds the first `len` data bytes.
   */
  function TurnOf(reply: NextReply, strerror: MessageTable): (t: Turn)
    ensures t.Abort? <==> reply.code > 0
    ensures reply.code < 0 ==> t == Fail(CheckError(reply.code, strerror).error)
    ensures reply.code == 0 && reply.len == 0 ==> t == Stop
    ensures reply.code == 0 && reply.len > 0 && !Utf8Valid(reply.name) ==> t == Fail(Utf8Error)
    ensures t.Entry? <==> reply.code == 0 && reply.len > 0 && Utf8Valid(reply.name)
    ensures t.Entry? ==> t.name == reply.name && t.value == Filled(reply.data, reply.len)
  {
    if reply.code > 0 then Abort
    else
      var checked := CheckError(reply.code, strerror);
      if checked.Err? then Fail(checked.error)
      else if reply.len == 0 then Stop
      else if !Utf8Valid(reply.name) then Fail(Utf8Error)
      else Entry(reply.name, Filled(reply.data, reply.len))
  }

  /** An attribute name that is a lone continuation byte fails the drain with `Utf8Error`. */
  lemma ContinuationByteNameFails(reply: NextReply, strerror: MessageTable)
    requires reply.code == 0 && reply.len > 0 && |reply.name| == 1 && IsContinuation(reply.name[0])
    ensures TurnOf(reply, strerror) == Fail(Utf8Error)
  {
    LoneContinuationIsNotUtf8(reply.name[0]);
    assert reply.name == [reply.name[0]];
  }

  /**
   The replies from the `k`-th up to the `n`-th are attributes and the
   `n`-th ends the iterator (past the last reply, it has ended).
   */
  predicate EndsAt(replies: seq<NextReply>, k: nat, n: nat, strerror: MessageTable)
    requires k <= n <= |replies|
  {
    (forall i :: k <= i < n ==> TurnOf(replies[i], strerror).Entry?)
    && (n == |replies| || TurnOf(replies[n], strerror).Stop?)
  }

  /**
   The entries the drain collects from the `k`-th reply on, in order, or the
   failure that ends it.
   */
  function DrainFrom(replies: seq<NextReply>, k: nat, strerror: MessageTable): (r: Result<seq<(Text, seq<Byte>)>>)
    requires k <= |replies|
    ensures r.Ok? ==> |r.value| <= |replies| - k
    ensures r.Ok? ==> forall i :: 0 <= i < |r.value| ==> Utf8Valid(r.value[i].0) && |r.value[i].1| > 0
    decreases |replies| - k
  {
    if k == |replies| then Ok([])
    else
      match TurnOf(replies[k], strerror)
      case Stop => Ok([])
      case Fail(e) => Err(e)
      case Abort => Panic
      case Entry(name, value) =>
        var rest :- DrainFrom(replies, k + 1, strerror);
        Ok([(name, value)] + rest)
  }

  /**
   Each collected entry is the name of the matching reply with exactly the
   first `len` bytes of its data.
   */
  lemma {:induction false} DrainedEntriesMatchReplies(replies: seq<NextReply>, k: nat, strerror: MessageTable)
    requires k <= |replies|
    ensures var r := DrainFrom(replies, k, strerror);
            r.Ok? ==> forall i :: 0 <= i < |r.value| ==>
              r.value[i].0 == replies[k + i].name && r.value[i].1 == Filled(replies[k + i].data, replies[k + i].len)
    decreases |replies| - k
  {
    if k < |replies| && TurnOf(replies[k], strerror).Entry? {
      DrainedEntriesMatchReplies(replies, k + 1, strerror);
    }
  }

  /** Inserting the entries in order into an empty map: a later entry overwrites an earlier one. */
  function ToMap(entries: seq<(Text, seq<Byte>)>): Attrs
    decreases |entries|
  {
    if |entries| == 0 then map[]
    else
      var last := entries[|entries| - 1];
      ToMap(entries[..|entries| - 1])[last.0 := last.1]
  }

  /** Appending an entry to the sequence is inserting it into the map. */
  lemma ToMapSnoc(entries: seq<(Text, seq<Byte>)>, name: Text, value: seq<Byte>)
    ensures ToMap(entries + [(name, value)]) == ToMap(entries)[name := value]
  {
  }

  /**
   Last value wins: the keys are the names inserted, and each maps to the
   value of the last entry with that name.
   */
  lemma {:induction false} ToMapLastWins(entries: seq<(Text, seq<Byte>)>, i: nat)
    requires i < |entries|
    requires forall j :: i < j < |entries| ==> entries[j].0 != entries[i].0
    ensures entries[i].0 in ToMap(entries) && ToMap(entries)[entries[i].0] == entries[i].1
    decreases |entries|
  {
    var n := |entries|;
    if i < n - 1 {
      var front := entries[..n - 1];
      assert forall j :: i < j < |front| ==> front[j].0 != front[i].0 by {
        forall j | i < j < |front| ensures front[j].0 != front[i].0 {
          assert front[j] == entries[j];
        }
      }
      ToMapLastWins(front, i);
      assert entries[n - 1].0 != entries[i].0;
    }
  }

  /** The keys of the map are exactly the names of the entries. */
  lemma {:induction false} ToMapKeys(entries: seq<(Text, seq<Byte>)>)
    ensures ToMap(entries).Keys == set i | 0 <= i < |entries| :: entries[i].0
    decreases |entries|
  {
    var n := |entries|;
    if n > 0 {
      var front := entries[..n - 1];
      ToMapKeys(front);
      var names := set i | 0 <= i < n :: entries[i].0;
      var frontNames := set i | 0 <= i < |front| :: front[i].0;
      assert names == frontNames + {entries[n - 1].0} by {
        forall x | x in names ensures x in frontNames + {entries[n - 1].0} {
          var i :| 0 <= i < n && entries[i].0 == x;
          if i < n - 1 { assert front[i] == entries[i]; }
        }
        forall x | x in frontNames ensures x in names {
          var i :| 0 <= i < |front| && front[i].0 == x;
          assert entries[i] == front[i];
        }
      }
    }
  }

  /** The result of `Xattrs::from_iter` on the iterator handle (`None` is a null handle). */
  function XattrsOf(handle: Option<nat>, replies: seq<NextReply>, strerror: MessageTable): (r: Result<Attrs>)
    ensures handle.None? ==> r == Ok(map[])
  {
    if handle.None? then Ok(map[]) else AsAttrs(DrainFrom(replies, 0, strerror))
  }

  /**
   A drain that succeeds collected one entry for each attribute reply from
   the `k`-th on, up to the reply that ends the iterator.
   */
  lemma {:induction false} DrainStopsAtEnd(replies: seq<NextReply>, k: nat, strerror: MessageTable)
    requires k <= |replies|
    ensures var r := DrainFrom(replies, k, strerror);
            r.Ok? ==> k + |r.value| <= |replies| && EndsAt(replies, k, k + |r.value|, strerror)
    decreases |replies| - k
  {
    if k < |replies| && TurnOf(replies[k], strerror).Entry? {
      DrainStopsAtEnd(replies, k + 1, strerror);
    }
  }

  /** Attribute replies up to one that ends the iterator are all collected. */
  lemma {:induction false} DrainCollectsEntries(replies: seq<NextReply>, k: nat, n: nat, strerror: MessageTable)
    requires k <= n <= |replies| && EndsAt(replies, k, n, strerror)
    ensures DrainFrom(replies, k, strerror).Ok? && |DrainFrom(replies, k, strerror).value| == n - k
    decreases n - k
  {
    if k < n {
      DrainCollectsEntries(replies, k + 1, n, strerror);
    }
  }

  /**
   `from_iter` on a live handle, stated over the replies: when the first `n`
   replies are attributes and the next one ends the iterator, the map holds
   exactly those `n` names.
   */
  lemma XattrsOfKeys(handle: nat, replies: seq<NextReply>, n: nat, strerror: MessageTable)
    requires n <= |replies| && EndsAt(replies, 0, n, strerror)
    ensures XattrsOf(Some(handle), replies, strerror).Ok?
    ensures XattrsOf(Some(handle), replies, strerror).value.Keys == set i | 0 <= i < n :: replies[i].name
  {
    var entries := DrainedNames(replies, n, strerror);
    ToMapKeys(entries);
    assert (set i | 0 <= i < |entries| :: entries[i].0) == (set i | 0 <= i < n :: replies[i].name);
  }

  /**
   Last value wins, stated over the replies: an attribute reply that no later
   attribute reply repeats the name of gives the map its value, the first
   `len` bytes of that reply's data.
   */
  lemma XattrsOfLastWins(handle: nat, replies: seq<NextReply>, n: nat, i: nat, strerror: MessageTable)
    requires i < n <= |replies| && EndsAt(replies, 0, n, strerror)
    requires forall j :: i < j < n ==> replies[j].name != replies[i].name
    ensures XattrsOf(Some(handle), replies, strerror).Ok?
    ensures replies[i].name in XattrsOf(Some(handle), replies, strerror).value
    ensures XattrsOf(Some(handle), replies, strerror).value[replies[i].name] == Filled(replies[i].data, replies[i].len)
  {
    var entries := DrainedNames(replies, n, strerror);
    assert XattrsOf(Some(handle), replies, strerror) == Ok(ToMap(entries));
    DrainedValue(replies, n, i, strerror);
    ToMapLastWins(entries, i);
  }

  /** The entries drained from the start, when the `n`-th reply ends the iterator: one per reply, named by it. */
  lemma DrainedNames(replies: seq<NextReply>, n: nat, strerror: MessageTable) returns (entries: seq<(Text, seq<Byte>)>)
    requires n <= |replies| && EndsAt(replies, 0, n, strerror)
    ensures DrainFrom(replies, 0, strerror) == Ok(entries)
    ensures |entries| == n
    ensures forall j :: 0 <= j < n ==> entries[j].0 == replies[j].name
  {
    DrainCollectsEntries(replies, 0, n, strerror);
    DrainedEntriesMatchReplies(replies, 0, strerror);
    entries := DrainFrom(replies, 0, strerror).value;
    forall j | 0 <= j < n ensures entries[j].0 == replies[j].name {
      assert entries[j].0 == replies[0 + j].name;
    }
  }

  /** The `i`-th entry drained holds the first `len` bytes of the `i`-th reply's data. */
  lemma DrainedValue(replies: seq<NextReply>, n: nat, i: nat, strerror: MessageTable)
    requires i < n <= |replies| && EndsAt(replies, 0, n, strerror)
    ensures DrainFrom(replies, 0, strerror).Ok? && i < |DrainFrom(replies, 0, strerror).value|
    ensures DrainFrom(replies, 0, strerror).value[i].1 == Filled(replies[i].data, replies[i].len)
  {
    DrainCollectsEntries(replies, 0, n, strerror);
    DrainedEntriesMatchReplies(replies, 0, strerror);
  }

  /**
   Later replies are never consumed: once a reply ends the drain, whatever
   the iterator would answer afterwards makes no difference.
   */
  lemma {:induction false} DrainIgnoresLaterReplies(replies: seq<NextReply>, later: seq<NextReply>, k: nat, j: nat, strerror: MessageTable)
    requires k <= j < |replies|
    requires !TurnOf(replies[j], strerror).Entry?
    ensures DrainFrom(replies + later, k, strerror) == DrainFrom(replies, k, strerror)
    decreases j - k
  {
    assert (replies + later)[k] == replies[k];
    if !TurnOf(replies[k], strerror).Entry? {
    } else {
      DrainIgnoresLaterReplies(replies, later, k + 1, j, strerror);
    }
  }

  /** A failing reply ends the drain with that reply's failure, whatever came before. */
  lemma {:induction false} DrainFailsAtFirstFailure(replies: seq<NextReply>, k: nat, j: nat, strerror: MessageTable)
    requires k <= j < |replies|
    requires forall i :: k <= i < j ==> TurnOf(replies[i], strerror).Entry?
    requires TurnOf(replies[j], strerror).Fail?
    ensures DrainFrom(replies, k, strerror) == Err(TurnOf(replies[j], strerror).error)
    decreases j - k
  {
    if k < j {
      DrainFailsAtFirstFailure(replies, k + 1, j, strerror);
    }
  }

  /** The `i`-th call yields an attribute, so the drain goes on. */
  predicate Continues(replies: seq<NextReply>, i: nat, strerror: MessageTable) {
    TurnOf(ReplyAt(replies, i), strerror).Entry?
  }

  /** `prefix` followed by the entries of `r`, or the failure of `r`. */
  function Prepend(prefix: seq<(Text, seq<Byte>)>, r: Result<seq<(Text, seq<Byte>)>>): Result<seq<(Text, seq<Byte>)>> {
    if r.Ok? then Ok(prefix + r.value) else r
  }

  /** One entry turn of the drain, unfolded. */
  lemma DrainEntryTurn(replies: seq<NextReply>, k: nat, entries: seq<(Text, seq<Byte>)>, strerror: MessageTable)
    requires k < |replies| && TurnOf(replies[k], strerror).Entry?
    ensures var t := TurnOf(replies[k], strerror);
            Prepend(entries, DrainFrom(replies, k, strerror))
            == Prepend(entries + [(t.name, t.value)], DrainFrom(replies, k + 1, strerror))
  {
    var t := TurnOf(replies[k], strerror);
    var rest := DrainFrom(replies, k + 1, strerror);
    if rest.Ok? {
      assert entries + ([(t.name, t.value)] + rest.value) == (entries + [(t.name, t.value)]) + rest.value;
    }
  }

  /** How a turn that is not an entry ends the drain, given the map built so far. */
  function Finish(turn: Turn, attrs: Attrs): (r: Result<Attrs>)
    requires !turn.Entry?
    ensures r.Ok? <==> turn.Stop?
    ensures turn.Stop? ==> r == Ok(attrs)
    ensures r.Panic? <==> turn.Abort?
    ensures turn.Fail? ==> r == Err(turn.error)
  {
    match turn
    case Stop => Ok(attrs)
    case Fail(e) => Err(e)
    case Abort => Panic
  }

  /** The map, or the failure, of a drain result. */
  function AsAttrs(drained: Result<seq<(Text, seq<Byte>)>>): Result<Attrs> {
    var entries :- drained;
    Ok(ToMap(entries))
  }

  /** The turn that ends the drain decides its outcome. */
  lemma DrainEndTurn(replies: seq<NextReply>, k: nat, entries: seq<(Text, seq<Byte>)>, strerror: MessageTable)
    requires k <= |replies| && !Continues(replies, k, strerror)
    ensures AsAttrs(Prepend(entries, DrainFrom(replies, k, strerror)))
            == Finish(TurnOf(ReplyAt(replies, k), strerror), ToMap(entries))
  {
    assert entries + [] == entries;
  }

  /**
   The drain loop of `Xattrs::from_iter`. `calls` counts the calls to
   `rados_getxattrs_next`.
   */
  method FromIter(handle: Option<nat>, replies: seq<NextReply>, strerror: MessageTable)
    returns (r: Result<Attrs>, calls: nat)
    ensures r == XattrsOf(handle, replies, strerror)
    ensures handle.None? ==> calls == 0
    ensures handle.Some? ==> calls >= 1 && !Continues(replies, calls - 1, strerror)
    ensures handle.Some? ==> forall i :: 0 <= i < calls - 1 ==> Continues(replies, i, strerror)
  {
    if handle.None? {
      return Ok(map[]), 0;
    }
    var entries: seq<(Text, seq<Byte>)> := [];
    var attrs: Attrs := map[];
    calls := 0;
    var whole := DrainFrom(replies, 0, strerror);
    assert whole.Ok? ==> entries + whole.value == whole.value;
    while true
      invariant calls <= |replies|
      invariant attrs == ToMap(entries)
      invariant forall i :: 0 <= i < calls ==> Continues(replies, i, strerror)
      invariant whole == Prepend(entries, DrainFrom(replies, calls, strerror))
      decreases |replies| - calls
    {
      var reply := ReplyAt(replies, calls);
      var turn := TurnOf(reply, strerror);
      if turn.Entry? {
        DrainEntryTurn(replies, calls, entries, strerror);
        ToMapSnoc(entries, turn.name, turn.value);
        attrs := attrs[turn.name := turn.value];
        entries := entries + [(turn.name, turn.value)];
        calls := calls + 1;
      } else {
        DrainEndTurn(replies, calls, entries, strerror);
        r := Finish(turn, attrs);
        calls := calls + 1;
        return;
      }
    }
  }

  /**
   `Drop for RadosXattrsIter`: the number of `rados_getxattrs_end` calls. On
   its own this only mirrors the null check; `Objects.GetXattrs` is where it
   says that the iterator is released once exactly when a handle was produced.
   */
  function EndCalls(handle: Option<nat>): (n: nat)
    ensures n <= 1
    ensures n == 1 <==> handle.Some?
  {
    if handle.Some? then 1 else 0
  }
}
